=== FILE: README.md ===
# Campaign dashboard: a Dafny model of its data-view and list logic

The dashboard is a client-rendered marketing-analytics page. Apart from its
charts and layout, it keeps a few pieces of in-memory state, and this project
models them as immutable datatypes and pure functions over sequences:

- **Filter store** (`FilterStore`): the filter criteria, each field with an
  inactive value. Also a single-field `updateFilter`, `clearFilters`, the
  separately kept list of active-filter labels, and the `useFilters` accessor,
  which fails outside its provider.
- **Active-filter labels** (`ActiveFilters`): the labels pushed by "Apply
  Filters", `removeFilter`, and the number inputs that store 0 for
  unparsable text.
- **Campaign table** (`CampaignTable`, `Pagination`): the conjunctive filter
  over the campaign records, the column sort and its header toggle, the pages
  of three rows, the "Showing x to y of z" line and the pagination controls.
- **Notifications** (`Notifications`): unread count, mark one or all as read,
  delete, and the "9+" badge.
- **Live feed** (`LiveFeed`): the event generator with type-consistent pools,
  and the buffer of the five most recent events, which fills only while
  connected.
- **Export history** (`Exports`): a new export is prepended as "processing".
  Later that record, identified by object identity, becomes "completed". Long
  file names are shortened for display and keep their extension.

`Seqs` holds the order-preserving `filter` and the subsequence relation, shared
by every list. `Strings` holds `toLowerCase`, `includes` and string ordering.
`Wrappers` holds `Option` and `Result`.

Notes on the source's behaviour:

- `totalPages` is `Math.ceil(n / 3)`, which is 0 when no row matches
  (src/components/data-table.tsx:173).
- The initial sort is by campaign name, ascending
  (src/components/data-table.tsx:104-105). So with the status criterion at
  "active", campaigns 1, 3 and 5 are displayed as 3, 5, 1
  (`CampaignTable.ActiveStatusScenario`).

## Model

| member | source | states |
|---|---|---|
| FilterStore.DefaultFiltersAreInactive | src/contexts/filter-context.tsx:30-42 | The default criteria are exactly the criteria with every field at its inactive value: empty dates and search, "all" type and status, 0 for the numbers, false for active-only |
| FilterStore.UpdateFilter | src/contexts/filter-context.tsx:48-50 | After an update, the written field holds the new value and every other field is unchanged |
| FilterStore.UpdateFilterIdempotent | src/contexts/filter-context.tsx:48-50 | Applying the same update twice gives the same criteria as applying it once |
| FilterStore.UpdateFilterCommutes | src/contexts/filter-context.tsx:48-50 | Updates to two different fields commute |
| FilterStore.StoreUpdateFilter | src/contexts/filter-context.tsx:48-50 | An update on the store changes one criterion and leaves the active-filter labels alone |
| FilterStore.ClearFilters | src/contexts/filter-context.tsx:52-55 | After clearing, every criterion is at its inactive value and the label list is empty |
| FilterStore.ClearFiltersRestoresInitialStore | src/contexts/filter-context.tsx:45-55 | Clearing from any state gives exactly the state a provider starts with: the default criteria and no labels |
| FilterStore.SetActiveFilters | src/contexts/filter-context.tsx:46 | Replacing the labels leaves the criteria unchanged |
| FilterStore.UseFilters | src/contexts/filter-context.tsx:73-78 | The accessor fails with the provider message exactly when there is no provider, and otherwise returns the provider's state |
| FilterStore.CoerceNumber | src/components/advanced-filters.tsx:180-201 | `parseFloat(x) \|\| 0` stores 0 for unparsable text and the parsed number otherwise |
| ActiveFilters.NumberInputUpdate | src/components/advanced-filters.tsx:176-202 | A budget or conversion input writes its own field, and unparsable text writes the field's inactive value |
| ActiveFilters.UnparsableBudgetsAreInactive | src/components/advanced-filters.tsx:176-188 | When both budget inputs hold unparsable text, "Budget Range" is not among the derived labels |
| ActiveFilters.DeriveLabelsIsOrderedSelection | src/components/advanced-filters.tsx:23-49 | The derived labels are exactly the due labels, taken from the fixed order Date Range, Campaign Type, Status, Budget Range, Min Conversion, Active Only, Search |
| ActiveFilters.DeriveLabelsMembership | src/components/advanced-filters.tsx:23-49 | There are at most 7 labels, and a label is listed iff its criterion is set. "Date Range" needs both dates; "Budget Range" needs either bound above 0 |
| ActiveFilters.DeriveLabelsOrderedAndDistinct | src/components/advanced-filters.tsx:23-49 | The labels have no duplicates and are a subsequence of the fixed order |
| ActiveFilters.DefaultFiltersHaveNoLabels | src/components/advanced-filters.tsx:23-49 | The default criteria yield no labels |
| ActiveFilters.ClearFiltersResyncsLabels | src/contexts/filter-context.tsx:52-55 | After clearing, the stored labels equal the labels derived from the stored criteria |
| ActiveFilters.RemoveLabel | src/components/advanced-filters.tsx:51-53 | The removed name no longer appears, every other label keeps its count, the rest keep their order, and removing an absent name changes nothing |
| ActiveFilters.RemoveLabelIdempotent | src/components/advanced-filters.tsx:51-53 | Removing a label twice is the same as removing it once |
| CampaignTable.PassesIffAllCriteria | src/components/data-table.tsx:110-153 | The early-return filter keeps a record iff every criterion is either unset or satisfied (logical AND) |
| CampaignTable.FilterCampaigns | src/components/data-table.tsx:110-153 | A record is in the filtered list iff it is in the data and meets every set criterion, The list is an order-preserving subsequence of the data, and it keeps every copy of a matching record: each record occurs as often as in the data if it matches, and not at all otherwise |
| CampaignTable.DefaultFiltersKeepEverything | src/components/data-table.tsx:110-153 | With every criterion inactive, the filtered list is the whole data |
| CampaignTable.SearchSelectsByName | src/components/data-table.tsx:112 | With a search term set, every kept record's name contains it case-insensitively, and a record whose name does not contain it is excluded |
| CampaignTable.BudgetBoundsRespected | src/components/data-table.tsx:127-132 | A bound of 0 is no bound. Every kept record respects a positive minimum and a positive maximum budget |
| CampaignTable.DateBoundsRespected | src/components/data-table.tsx:145-150 | A set start date excludes records starting earlier, and a set end date excludes records ending later, each independently |
| CampaignTable.HandleSort | src/components/data-table.tsx:179-186 | A header click makes that column current. On the current column it flips the direction; on another column it sets ascending |
| CampaignTable.HandleSortTwiceRestores | src/components/data-table.tsx:179-186 | Clicking the current column twice restores the original sort |
| CampaignTable.Insert | src/components/data-table.tsx:155-168 | Inserting into a sorted list keeps it sorted and adds exactly that record |
| CampaignTable.SortCampaigns | src/components/data-table.tsx:155-168 | The sorted list is a permutation of the input with no record placed after a neighbour that must follow it |
| CampaignTable.SortedNeighboursOrdered | src/components/data-table.tsx:155-168 | In a sorted list, neighbouring keys are non-decreasing for "asc" and non-increasing for "desc" |
| CampaignTable.SortKeepsSorted | src/components/data-table.tsx:155-168 | Sorting an already sorted list leaves it unchanged, so in an already sorted list equal keys keep their order |
| CampaignTable.InsertStable | src/components/data-table.tsx:155-168 | Inserting a record into a sorted list puts it before every record with the same key already there, and keeps their order |
| CampaignTable.SortStable | src/components/data-table.tsx:155-168 | The sort is stable: for every key value, the records with that key appear in the sorted list in the same order as in the input |
| CampaignTable.SortIdempotent | src/components/data-table.tsx:155-168 | Sorting twice by the same column and direction gives the same result as sorting once |
| CampaignTable.FilteredAndSorted | src/components/data-table.tsx:109-171 | The table's row list is sorted, is a permutation of the filtered list, and holds exactly the records meeting every set criterion |
| CampaignTable.DeriveView | src/components/data-table.tsx:109-177 | A render shows the requested page of the filtered and sorted rows. Those rows are sorted and each meets every set criterion. A page within the page count holds min(3, count - (page-1)*3) rows, and an empty result shows none. The count is the filtered count and the page count is its ceiling over 3 |
| CampaignTable.ActiveStatusFilter | src/components/data-table.tsx:21-153 | With status "active", campaigns 1, 3 and 5 are kept, in data order |
| CampaignTable.ActiveCampaignsByName | src/components/data-table.tsx:155-168 | Sorted by name ascending, the active campaigns come in the order 3, 5, 1 |
| CampaignTable.ActiveStatusSorted | src/components/data-table.tsx:109-171 | With status "active" and the initial sort, the row list is campaigns 3, 5, 1 |
| CampaignTable.ActiveStatusScenario | src/components/data-table.tsx:104-177 | On page 1 with status "active" and the initial sort, the table shows campaigns 3, 5, 1 |
| CampaignTable.BudgetWindowScenario | src/components/data-table.tsx:21-153 | Budgets between 4000 and 7000 keep campaigns 1 and 4 |
| Pagination.TotalPages | src/components/data-table.tsx:173 | The page count is the least number of 3-row pages holding all rows, and it is 0 when there are no rows |
| Pagination.Page | src/components/data-table.tsx:174-177 | A page has at most 3 rows, taken in order from position (page-1)*3 on. A page beyond the page count is empty |
| Pagination.PageLength | src/components/data-table.tsx:173-177 | A page within the page count holds min(3, n - (page-1)*3) rows: every page but the last is full |
| Pagination.ShowingDescribesPage | src/components/data-table.tsx:348-350 | The "Showing x to y" bounds name exactly the rows of the page; y is min(page*3, n); x > y iff the page is empty |
| Pagination.PagesUpToIsPrefix | src/components/data-table.tsx:174-177 | Pages 1 to k, concatenated, are the first min(3k, n) rows |
| Pagination.PagesCoverAllRows | src/components/data-table.tsx:173-177 | Concatenating pages 1 to the page count yields the whole row list |
| Pagination.FiveRowsOnTwoPages | src/components/data-table.tsx:173-177 | Five rows make two pages. Page 1 holds rows 1-3, page 2 holds rows 4-5, and page 3 is empty |
| Pagination.PagerStepAsWritten | src/components/data-table.tsx:353-385 | The pagination controls as written never take the page below 1. Previous goes to page − 1 except on page 1. Next advances from any page other than the last. A page button goes to its page when that page is between 1 and the page count, and leaves the page unchanged otherwise |
| Pagination.NextPassesLastPage | src/components/data-table.tsx:376-385 | With no matching rows, Next on page 1 leads to page 2, which reads "Showing 4 to 0" |
| Pagination.NextKeepsGoingPastEnd | src/components/data-table.tsx:376-385 | Beyond the last page, each click on Next moves one page further |
| Pagination.ClampPage | src/components/data-table.tsx:106-177 | Part of the corrected pager (the source never adjusts `currentPage` when the count changes): clamping puts the page in 1..max(1, totalPages) and leaves a page already in range alone |
| Pagination.PagerStep | src/components/data-table.tsx:353-385 | With Next disabled from the last page on, every control keeps the page in range. Next goes to min(page + 1, max(1, pages)) and Previous to max(page − 1, 1). A page button goes to its target when the target is in 1..pages, and is a no-op otherwise |
| Pagination.InRangeShowsRows | src/components/data-table.tsx:348-350 | On a page in range, the "Showing" bounds are well formed, and a non-empty table shows at least one row |
| Notifications.UnreadCount | src/components/notifications.tsx:87 | The unread count is the number of `false` read flags, that is, the number of unread notifications. It is at most the list length, and it is 0 iff every notification is read |
| Notifications.MarkAsRead | src/components/notifications.tsx:89-93 | Length and order are kept. A notification becomes read iff it was read or has the id, and nothing else about any record changes |
| Notifications.MarkAsReadIdempotent | src/components/notifications.tsx:89-93 | Marking an id read twice is the same as marking it once |
| Notifications.MarkAsReadUnknownId | src/components/notifications.tsx:89-93 | An id no notification has leaves the list unchanged |
| Notifications.MarkAsReadUnreadCount | src/components/notifications.tsx:87-93 | Marking an id read lowers the unread count by the number of unread notifications with that id |
| Notifications.MarkAllAsRead | src/components/notifications.tsx:95-97 | Every notification becomes read with nothing else changed, and the unread count is 0 |
| Notifications.MarkAsReadAllFlags | src/components/notifications.tsx:89-93 | After marking a list of ids, a notification is read iff it was read or its id was listed |
| Notifications.MarkEachAsRead | src/components/notifications.tsx:89-97 | Marking every notification's id read, one id at a time, gives the same list as marking all read |
| Notifications.DeleteNotification | src/components/notifications.tsx:99-101 | Exactly the notifications with the id are removed, the rest keep their order, and the length drops by the number removed |
| Notifications.DeleteUnknownId | src/components/notifications.tsx:99-101 | Deleting an id no notification has changes nothing |
| Notifications.UnreadBadge | src/components/notifications.tsx:118-126 | The badge is hidden iff the count is 0. It shows "9+" above 9 and otherwise the single digit of the count |
| Notifications.MarkAllAsReadHidesBadge | src/components/notifications.tsx:95-126 | After "mark all read" the badge is hidden |
| Notifications.InitialBadge | src/components/notifications.tsx:26-126 | The initial notifications have two unread, and the badge shows "2" |
| LiveFeed.GenerateUpdate | src/components/real-time-updates.tsx:22-70 | A generated event's type and status lie in their enumerations, and its message and value come from its own type's pools |
| LiveFeed.PoolsAreDisjoint | src/components/real-time-updates.tsx:28-60 | No message or value belongs to the pools of two types, so an event's text identifies its type |
| LiveFeed.Tick | src/components/real-time-updates.tsx:72-78 | A connected tick puts the new event first and keeps the previous first four in order, with length min(n+1, 5). The buffer is never shorter after a tick, for a buffer of at most five entries, the only ones a feed reaches. A disconnected tick changes nothing |
| LiveFeed.SetConnected | src/components/real-time-updates.tsx:20 | Toggling the connection leaves the buffer unchanged |
| LiveFeed.RunKeepsMostRecent | src/components/real-time-updates.tsx:72-78 | From an empty connected feed, the buffer holds the last five events produced, newest first |
| LiveFeed.DisconnectedRunIsIdle | src/components/real-time-updates.tsx:72-78 | While disconnected, any number of ticks leaves the feed unchanged |
| Exports.InitialHistory | src/components/export-functionality.tsx:25-40 | The history starts with two completed exports with distinct identities |
| Exports.ReplaceSlashes | src/components/export-functionality.tsx:45 | The date text keeps its length and its other characters, and each slash becomes an underscore |
| Exports.ExportFileName | src/components/export-functionality.tsx:45 | A new export's name starts with the upper-case kind and "_Report_", ends in "." plus the kind, and has the date text in between with every slash replaced by "_". Its length is 15 plus the date text's length, and it has no slash |
| Exports.HandleExport | src/components/export-functionality.tsx:42-51 | One "processing" record with a fresh identity, the kind's name and the kind's size is prepended, and the older records follow unchanged |
| Exports.CompleteExport | src/components/export-functionality.tsx:53-60 | Only records with the given identity become "completed", and length, order and all other records are unchanged |
| Exports.ExportThenComplete | src/components/export-functionality.tsx:42-61 | After an export and its completion, the new record is on top and "completed", and the older history is exactly as before |
| Exports.CompletionFindsItsRecord | src/components/export-functionality.tsx:53-60 | A late completion finds its record wherever it now sits and changes no other record |
| Exports.AfterLastDot | src/components/export-functionality.tsx:82 | `split('.').pop()` is a dot-free suffix of the name. It is the whole name when there is no dot, and otherwise the text right after the last dot |
| Exports.TruncateAsWrittenGrowsDotlessNames | src/components/export-functionality.tsx:80-86 | As written, a long name without a dot comes out as "...." plus the whole name, which is longer than the input |
| Exports.TruncateFileName | src/components/export-functionality.tsx:80-86 | The corrected truncation (the source does not cut dot-less names this way; see Findings): a name that fits is returned unchanged, and a long dot-less name is cut to exactly maxLength characters ending in "..." |
| Exports.TruncateDottedName | src/components/export-functionality.tsx:80-86 | A long dotted name becomes the first min(stem length, maxLength-3) characters of its stem, then "...", then "." and the extension when the extension is non-empty |
| Exports.TruncateKeepsExtension | src/components/export-functionality.tsx:82-85 | A long name with a non-empty extension still ends in "." plus that extension |
| Exports.TruncateKeepsStemStart | src/components/export-functionality.tsx:82-85 | A long dotted name keeps the first min(stem length, maxLength-3) characters of its stem, followed by "..." |
| Exports.TruncateAgreesWhenDotted | src/components/export-functionality.tsx:80-86 | The corrected truncation and the one as written agree on every name that contains a dot |
| Exports.ExportNameKeepsExtension | src/components/export-functionality.tsx:42-86 | The shortened display name of a new export still ends in "." plus its kind |

## Left out

- Rendering, JSX, framer-motion animation, CSS classes, and the colour and icon pickers (`getStatusColor`, `getStatusBadge`, `getTypeColor`, `getTypeIcon`) are presentation only.
- Timers: the 3-second feed interval, the 2-second export delay and their cleanup are not modelled. A tick or a completion is an explicit call (`LiveFeed.Tick`, `Exports.CompleteExport`).
- `Math.random`: every random choice is an index argument below the pool size, and the random event id is an opaque string.
- `Date`, `Date.now` and `toLocaleDateString`: a clock reading is an integer argument, and the formatted date is an opaque string.
- Only the relative order of strings matters for `localeCompare`. It is modelled as lexicographic order of characters (Unicode scalar values). On the ASCII date strings this is the order JavaScript's `<` gives.
- JavaScript strings are sequences of UTF-16 code units, while the model's strings are sequences of Unicode scalar values. For characters outside the Basic Multilingual Plane, lengths, `substring` cut positions and string order differ: such a character is two code units in JavaScript and one character here. The strings the model handles (campaign names, dates, messages and file names) are ASCII in the dashboard. The emoji icons that are outside that plane are presentation and are not modelled.
- `toLowerCase` maps only the ASCII letters. Case mapping for other Unicode characters is not modelled.
- `parseFloat` is a parameter: its result is given as an `Option<real>`, with `None` for `NaN`.
- JavaScript numbers are unbounded `int` for counts and budgets and `real` for rates and bounds. Floating-point rounding is not modelled; only comparisons matter.
- The table header's search and status inputs write straight into the criteria object (src/components/data-table.tsx:213, 217). That bypasses `updateFilter` and triggers no re-render, so it is not modelled as a write path.
- `setFilters`, the whole-object setter of the store, is React's own state setter and is not modelled separately.
- FilterStore.UpdateFilter: takes one typed update per field. The TypeScript signature would also accept a value of another field's type, which no caller passes.
- The stable `Array.prototype.sort` is modelled as a stable insertion sort. Sortedness, permutation and stability (`SortStable`) together fix the result uniquely, so the two agree. The comparator's behaviour on `NaN` is not modelled.
- Pagination.Page: requires page ≥ 1. The controls never go below page 1 (`PagerStepAsWritten`), so JavaScript's negative `slice` indices never arise.
- The notification icon, the dropdown's open state, the export download button and the file generation itself (no file is ever produced) are not modelled.

## Findings

| source | as written | input that shows it | evidently intended | confidence | as-written member | corrected member |
|---|---|---|---|---|---|---|
| src/components/export-functionality.tsx:82-85 | For a name with no dot, `split('.').pop()` returns the whole name and `lastIndexOf('.')` is -1. The result is "...." followed by the whole name | a 26-letter name without a dot and maxLength 25 gives a 30-character result | cut the name to maxLength-3 characters and append "..." | medium, not executed | Exports.TruncateAsWrittenGrowsDotlessNames | Exports.TruncateFileName |
| src/components/data-table.tsx:381 | Next is disabled only when `currentPage === totalPages`. With no matching rows there are 0 pages and Next stays enabled; after a filter shrinks the list it stays enabled past the end | no matching rows, page 1, click Next: page 2, "Showing 4 to 0 of 0 results" | disable Next from the last page on, and clamp the page into 1..max(1, totalPages) when the count changes | high, not executed | Pagination.NextPassesLastPage | Pagination.PagerStep |

=== FILE: active_filters.dfy ===
/**
 The active-filter labels of the advanced filter panel
 (src/components/advanced-filters.tsx): deriving them from the criteria when
 "Apply Filters" is pressed, and removing one by name.
 */
module ActiveFilters {
  import opened Seqs
  import opened FilterStore

  const DateRangeLabel := "Date Range"
  const CampaignTypeLabel := "Campaign Type"
  const StatusLabel := "Status"
  const BudgetRangeLabel := "Budget Range"
  const MinConversionLabel := "Min Conversion"
  const ActiveOnlyLabel := "Active Only"
  const SearchLabel := "Search"

  /** Every label, in the order the panel lists them. */
  const LabelOrder := [DateRangeLabel, CampaignTypeLabel, StatusLabel, BudgetRangeLabel,
                       MinConversionLabel, ActiveOnlyLabel, SearchLabel]

  /** When a label is due: the criterion it names is set. Any other text is never due. */
  predicate LabelApplies(f: FilterState, name: string) {
    if name == DateRangeLabel then f.dateRange.start != "" && f.dateRange.end != ""
    else if name == CampaignTypeLabel then f.campaignType != "all"
    else if name == StatusLabel then f.status != "all"
    else if name == BudgetRangeLabel then f.minBudget > 0.0 || f.maxBudget > 0.0
    else if name == MinConversionLabel then f.minConversion > 0.0
    else if name == ActiveOnlyLabel then f.showOnlyActive
    else if name == SearchLabel then f.searchTerm != ""
    else false
  }

  /** `LabelApplies` for fixed criteria, as a predicate on labels. */
  function DueFor(f: FilterState): string -> bool {
    name => LabelApplies(f, name)
  }

  /** The label pushed for one criterion: `[name]` when the criterion is set, nothing otherwise. */
  function PushIf(isSet: bool, name: string): seq<string> {
    if isSet then [name] else []
  }

  /** `handleApplyFilters`: one label pushed per set criterion, in a fixed order. */
  function DeriveLabels(f: FilterState): (r: seq<string>)
  {
    PushIf(f.dateRange.start != "" && f.dateRange.end != "", DateRangeLabel)
    + (PushIf(f.campaignType != "all", CampaignTypeLabel)
    + (PushIf(f.status != "all", StatusLabel)
    + (PushIf(f.minBudget > 0.0 || f.maxBudget > 0.0, BudgetRangeLabel)
    + (PushIf(f.minConversion > 0.0, MinConversionLabel)
    + (PushIf(f.showOnlyActive, ActiveOnlyLabel)
    + PushIf(f.searchTerm != "", SearchLabel))))))
  }

  /** Each label of `LabelOrder` is kept exactly when `DeriveLabels` pushes it. */
  lemma KeepEachLabel(f: FilterState)
    ensures Keep(DateRangeLabel, DueFor(f)) == PushIf(f.dateRange.start != "" && f.dateRange.end != "", DateRangeLabel)
    ensures Keep(CampaignTypeLabel, DueFor(f)) == PushIf(f.campaignType != "all", CampaignTypeLabel)
    ensures Keep(StatusLabel, DueFor(f)) == PushIf(f.status != "all", StatusLabel)
    ensures Keep(BudgetRangeLabel, DueFor(f)) == PushIf(f.minBudget > 0.0 || f.maxBudget > 0.0, BudgetRangeLabel)
    ensures Keep(MinConversionLabel, DueFor(f)) == PushIf(f.minConversion > 0.0, MinConversionLabel)
    ensures Keep(ActiveOnlyLabel, DueFor(f)) == PushIf(f.showOnlyActive, ActiveOnlyLabel)
    ensures Keep(SearchLabel, DueFor(f)) == PushIf(f.searchTerm != "", SearchLabel)
  {
  }

  /** The derived labels are exactly the due ones, picked out of `LabelOrder` in its order. */
  lemma DeriveLabelsIsOrderedSelection(f: FilterState)
    ensures DeriveLabels(f) == Filter(LabelOrder, DueFor(f))
  {
    KeepEachLabel(f);
    FilterSeven(LabelOrder, DueFor(f));
  }

  /** A label is listed exactly when the criterion it names is set; nothing else is ever listed. */
  lemma DeriveLabelsMembership(f: FilterState)
    ensures |DeriveLabels(f)| <= |LabelOrder|
    ensures forall l :: l in DeriveLabels(f) <==> l in LabelOrder && LabelApplies(f, l)
    ensures DateRangeLabel in DeriveLabels(f) <==> f.dateRange.start != "" && f.dateRange.end != ""
    ensures BudgetRangeLabel in DeriveLabels(f) <==> f.minBudget > 0.0 || f.maxBudget > 0.0
  {
    DeriveLabelsIsOrderedSelection(f);
  }

  /** The labels never repeat and follow the panel's fixed order. */
  lemma DeriveLabelsOrderedAndDistinct(f: FilterState)
    ensures NoDuplicates(DeriveLabels(f))
    ensures IsSubsequence(DeriveLabels(f), LabelOrder)
  {
    DeriveLabelsIsOrderedSelection(f);
    assert NoDuplicates(LabelOrder);
    FilterNoDuplicates(LabelOrder, DueFor(f));
    FilterIsSubsequence(LabelOrder, DueFor(f));
  }

  /** With the default criteria nothing is labelled. */
  lemma DefaultFiltersHaveNoLabels()
    ensures DeriveLabels(DefaultFilters) == []
  {
  }

  /** After `clearFilters` the stored labels agree with the stored criteria again. */
  lemma ClearFiltersResyncsLabels(s: Store)
    ensures ClearFilters(s).activeFilters == DeriveLabels(ClearFilters(s).filters)
  {
    var r := ClearFilters(s);
    DefaultFiltersAreInactive(r.filters);
  }

  /** The `removeFilter` test: keep a label unless it is `name`. */
  function Differs(name: string): string -> bool {
    l => l != name
  }

  /** `removeFilter(name)`: drops every occurrence of `name`, keeping the rest in order. */
  function RemoveLabel(labels: seq<string>, name: string): (r: seq<string>)
    ensures name !in r
    ensures forall l :: l != name ==> multiset(r)[l] == multiset(labels)[l]
    ensures IsSubsequence(r, labels)
    ensures name !in labels ==> r == labels
  {
    var keep := Differs(name);
    FilterIsSubsequence(labels, keep);
    assert forall l :: l != name ==> multiset(Filter(labels, keep))[l] == multiset(labels)[l] by {
      forall l | l != name
        ensures multiset(Filter(labels, keep))[l] == multiset(labels)[l]
      {
        FilterMultiplicity(labels, keep, l);
      }
    }
    assert name !in labels ==> Filter(labels, keep) == labels by {
      if name !in labels {
        FilterKeepsAll(labels, keep);
      }
    }
    Filter(labels, keep)
  }

  /** Removing the same label twice is the same as removing it once. */
  lemma RemoveLabelIdempotent(labels: seq<string>, name: string)
    ensures RemoveLabel(RemoveLabel(labels, name), name) == RemoveLabel(labels, name)
  {
    FilterIdempotent(labels, Differs(name));
  }

  /** The number input handler for a budget bound or the minimum conversion: unparsable text stores 0. */
  function NumberInputUpdate(key: FilterKey, parsed: Wrappers.Option<real>): (u: FilterUpdate)
    requires key in {MinBudgetKey, MaxBudgetKey, MinConversionKey}
    ensures u.Key() == key
    ensures parsed.None? ==> u.Value() == Sentinel(key)
    ensures parsed.Some? ==> u.Value() == NumberValue(parsed.value)
  {
    var v := CoerceNumber(parsed);
    match key
    case MinBudgetKey => SetMinBudget(v)
    case MaxBudgetKey => SetMaxBudget(v)
    case MinConversionKey => SetMinConversion(v)
  }

  /** Unparsable numbers in both budget fields leave "Budget Range" out of the labels. */
  lemma UnparsableBudgetsAreInactive(f: FilterState)
    ensures BudgetRangeLabel !in DeriveLabels(
      UpdateFilter(UpdateFilter(f, NumberInputUpdate(MinBudgetKey, Wrappers.None)),
                   NumberInputUpdate(MaxBudgetKey, Wrappers.None)))
  {
  }
}

=== FILE: campaign_table.dfy ===
/**
 The campaign table's view derivation (src/components/data-table.tsx): the
 multi-criterion filter over the campaign records, the column sort with its
 header toggle, and the page of rows shown.
 */
module CampaignTable {
  import opened Seqs
  import opened Strings
  import opened FilterStore
  import opened Pagination

  /** One campaign record; the read-only reference data of the table. */
  datatype Campaign = Campaign(
    id: nat,
    name: string,
    status: string,
    budget: int,
    spent: int,
    impressions: int,
    clicks: int,
    conversions: int,
    ctr: real,
    cpc: real,
    campaignType: string,
    startDate: string,
    endDate: string)

  /** The five campaigns the table is built over (`data`), one constant each. */
  const SummerSale := Campaign(1, "Summer Sale 2024", "active", 5000, 3200, 125000, 8500, 425, 6.8, 0.38, "social", "2024-06-01", "2024-08-31")
  const BrandAwareness := Campaign(2, "Brand Awareness Q1", "paused", 3000, 1800, 89000, 5200, 260, 5.8, 0.35, "display", "2024-01-01", "2024-03-31")
  const ProductLaunch := Campaign(3, "Product Launch", "active", 8000, 6500, 210000, 15000, 750, 7.1, 0.43, "search", "2024-07-01", "2024-09-30")
  const HolidaySpecial := Campaign(4, "Holiday Special", "completed", 6000, 6000, 180000, 12000, 600, 6.7, 0.50, "email", "2024-11-01", "2024-12-31")
  const Retargeting := Campaign(5, "Retargeting Campaign", "active", 2500, 1200, 45000, 3800, 190, 8.4, 0.32, "social", "2024-08-01", "2024-10-31")

  const Data: seq<Campaign> := [SummerSale, BrandAwareness, ProductLaunch, HolidaySpecial, Retargeting]

  // ---------------------------------------------------------------------------
  // Filtering

  /**
   The `data.filter` callback: each set criterion, checked in turn, may reject
   the record; a record no criterion rejects is kept. Dates are ISO strings and
   compare as strings.
   */
  predicate Passes(f: FilterState, c: Campaign) {
    if f.searchTerm != "" && !Contains(ToLower(c.name), ToLower(f.searchTerm)) then false
    else if f.status != "all" && c.status != f.status then false
    else if f.campaignType != "all" && c.campaignType != f.campaignType then false
    else if f.minBudget > 0.0 && (c.budget as real) < f.minBudget then false
    else if f.maxBudget > 0.0 && (c.budget as real) > f.maxBudget then false
    else if f.minConversion > 0.0 && c.ctr < f.minConversion then false
    else if f.showOnlyActive && c.status != "active" then false
    else if f.dateRange.start != "" && StrLess(c.startDate, f.dateRange.start) then false
    else if f.dateRange.end != "" && StrLess(f.dateRange.end, c.endDate) then false
    else true
  }

  /** The search criterion: unset, or the name contains the term, ignoring case. */
  predicate SearchHolds(f: FilterState, c: Campaign) {
    f.searchTerm == "" || Contains(ToLower(c.name), ToLower(f.searchTerm))
  }

  /** The budget criterion: each bound is either 0 (none) or respected. */
  predicate BudgetHolds(f: FilterState, c: Campaign) {
    (f.minBudget > 0.0 ==> c.budget as real >= f.minBudget) &&
    (f.maxBudget > 0.0 ==> c.budget as real <= f.maxBudget)
  }

  /** The date criterion: a set start is not after the start date, a set end not before the end date. */
  predicate DatesHold(f: FilterState, c: Campaign) {
    (f.dateRange.start != "" ==> !StrLess(c.startDate, f.dateRange.start)) &&
    (f.dateRange.end != "" ==> !StrLess(f.dateRange.end, c.endDate))
  }

  /** Every criterion, each one either unset or satisfied. */
  predicate AllCriteriaHold(f: FilterState, c: Campaign) {
    && SearchHolds(f, c)
    && (f.status == "all" || c.status == f.status)
    && (f.campaignType == "all" || c.campaignType == f.campaignType)
    && BudgetHolds(f, c)
    && (f.minConversion > 0.0 ==> c.ctr >= f.minConversion)
    && (f.showOnlyActive ==> c.status == "active")
    && DatesHold(f, c)
  }

  /** The chain of early returns keeps a record exactly when all set criteria hold (logical AND). */
  lemma PassesIffAllCriteria(f: FilterState, c: Campaign)
    ensures Passes(f, c) <==> AllCriteriaHold(f, c)
  {
  }

  /** `Passes` for fixed criteria, as a predicate on records. */
  function PassesFor(f: FilterState): Campaign -> bool {
    c => Passes(f, c)
  }

  /** `filtered`: the records the criteria keep, in their original order. */
  function FilterCampaigns(data: seq<Campaign>, f: FilterState): (r: seq<Campaign>)
    ensures forall c :: c in r <==> c in data && AllCriteriaHold(f, c)
    ensures IsSubsequence(r, data)
    ensures |r| <= |data|
    ensures forall c :: multiset(r)[c] == if AllCriteriaHold(f, c) then multiset(data)[c] else 0
  {
    FilterIsSubsequence(data, PassesFor(f));
    assert forall c :: multiset(Filter(data, PassesFor(f)))[c] == if AllCriteriaHold(f, c) then multiset(data)[c] else 0 by {
      forall c
        ensures multiset(Filter(data, PassesFor(f)))[c] == if AllCriteriaHold(f, c) then multiset(data)[c] else 0
      {
        FilterMultiplicity(data, PassesFor(f), c);
        PassesIffAllCriteria(f, c);
      }
    }
    Filter(data, PassesFor(f))
  }

  /** With every criterion at its inactive value, every record is kept. */
  lemma DefaultFiltersKeepEverything(data: seq<Campaign>)
    ensures FilterCampaigns(data, DefaultFilters) == data
  {
    FilterKeepsAll(data, PassesFor(DefaultFilters));
  }

  /** A set search term keeps exactly the records whose name contains it, ignoring case. */
  lemma SearchSelectsByName(data: seq<Campaign>, f: FilterState, c: Campaign)
    requires f.searchTerm != "" && c in data
    ensures !Contains(ToLower(c.name), ToLower(f.searchTerm)) ==> c !in FilterCampaigns(data, f)
    ensures c in FilterCampaigns(data, f) ==> Contains(ToLower(c.name), ToLower(f.searchTerm))
  {
  }

  /** A budget bound of 0 is no bound; a positive bound is respected by every kept record. */
  lemma BudgetBoundsRespected(data: seq<Campaign>, f: FilterState, c: Campaign)
    requires c in FilterCampaigns(data, f)
    ensures f.minBudget > 0.0 ==> c.budget as real >= f.minBudget
    ensures f.maxBudget > 0.0 ==> c.budget as real <= f.maxBudget
  {
  }

  /** The date bounds act independently: each excludes only records beyond it. */
  lemma DateBoundsRespected(data: seq<Campaign>, f: FilterState, c: Campaign)
    requires c in data
    ensures f.dateRange.start != "" && StrLess(c.startDate, f.dateRange.start) ==> c !in FilterCampaigns(data, f)
    ensures f.dateRange.end != "" && StrLess(f.dateRange.end, c.endDate) ==> c !in FilterCampaigns(data, f)
  {
  }

  // ---------------------------------------------------------------------------
  // Sorting

  /** The sortable columns (`SortField`). */
  datatype SortField = ByCampaign | ByBudget | BySpent | ByImpressions | ByClicks | ByConversions | ByCtr | ByCpc

  datatype SortDirection = Asc | Desc

  /** The column and direction the table is sorted by. */
  datatype SortState = SortState(field: SortField, direction: SortDirection)

  /** The sort the table starts with: by campaign name, ascending. */
  const InitialSort := SortState(ByCampaign, Asc)

  /**
   `handleSort(field)`: the current column flips its direction; another column
   becomes current, ascending.
   */
  function HandleSort(st: SortState, field: SortField): (r: SortState)
    ensures r.field == field
    ensures st.field == field ==> r.direction != st.direction
    ensures st.field != field ==> r.direction == Asc
  {
    if st.field == field then
      st.(direction := if st.direction == Asc then Desc else Asc)
    else
      SortState(field, Asc)
  }

  /** Clicking the current column twice restores the sort. */
  lemma HandleSortTwiceRestores(st: SortState)
    ensures HandleSort(HandleSort(st, st.field), st.field) == st
  {
  }

  /** The value a column sorts by: text for the name, a number for the rest. */
  datatype SortKey = Text(text: string) | Number(number: real)

  function Key(c: Campaign, field: SortField): SortKey {
    match field
    case ByCampaign => Text(c.name)
    case ByBudget => Number(c.budget as real)
    case BySpent => Number(c.spent as real)
    case ByImpressions => Number(c.impressions as real)
    case ByClicks => Number(c.clicks as real)
    case ByConversions => Number(c.conversions as real)
    case ByCtr => Number(c.ctr)
    case ByCpc => Number(c.cpc)
  }

  /**
   Strict order of keys: `localeCompare` for text, modelled as lexicographic
   order, and subtraction for numbers.
   */
  predicate KeyLess(a: SortKey, b: SortKey) {
    match (a, b)
    case (Text(x), Text(y)) => StrLess(x, y)
    case (Number(x), Number(y)) => x < y
    case _ => false
  }

  lemma KeyLessAsymmetric(a: SortKey, b: SortKey)
    ensures KeyLess(a, b) ==> !KeyLess(b, a)
  {
    if a.Text? && b.Text? {
      StrLessAsymmetric(a.text, b.text);
    }
  }

  /** The keys of one column are totally ordered. */
  lemma KeyLessTotal(c: Campaign, d: Campaign, field: SortField)
    ensures Key(c, field) != Key(d, field) ==> KeyLess(Key(c, field), Key(d, field)) || KeyLess(Key(d, field), Key(c, field))
  {
    if field == ByCampaign {
      StrLessTotal(c.name, d.name);
    }
  }

  /** The comparator's verdict that `a` must come before `b` (it returned a negative number). */
  predicate Before(st: SortState, a: Campaign, b: Campaign) {
    match st.direction
    case Asc => KeyLess(Key(a, st.field), Key(b, st.field))
    case Desc => KeyLess(Key(b, st.field), Key(a, st.field))
  }

  /** No record is placed after a neighbour that should follow it. */
  predicate SortedBy(s: seq<Campaign>, st: SortState) {
    forall i :: 0 < i < |s| ==> !Before(st, s[i], s[i - 1])
  }

  /** Dropping the first record of a sorted list leaves it sorted. */
  lemma SortedTail(s: seq<Campaign>, st: SortState)
    requires SortedBy(s, st) && |s| > 0
    ensures SortedBy(s[1..], st)
  {
    forall i | 0 < i < |s[1..]|
      ensures !Before(st, s[1..][i], s[1..][i - 1])
    {
      assert s[1..][i] == s[i + 1] && s[1..][i - 1] == s[i];
    }
  }

  /** Inserts `c` before the first record it does not have to follow; equal keys keep their order. */
  function Insert(c: Campaign, s: seq<Campaign>, st: SortState): (r: seq<Campaign>)
    requires SortedBy(s, st)
    ensures SortedBy(r, st)
    ensures multiset(r) == multiset(s) + multiset{c}
    ensures |r| > 0 && (r[0] == c || (|s| > 0 && r[0] == s[0]))
  {
    if |s| == 0 then [c]
    else if Before(st, s[0], c) then
      SortedTail(s, st);
      var rest := Insert(c, s[1..], st);
      assert s == [s[0]] + s[1..];
      KeyLessAsymmetric(Key(s[0], st.field), Key(c, st.field));
      assert !Before(st, rest[0], s[0]);
      [s[0]] + rest
    else
      [c] + s
  }

  /**
   `filtered.sort(comparator)`. JavaScript's sort is stable, and a stable sort by
   a total preorder has exactly one result, so insertion sort computes it.
   */
  function SortCampaigns(s: seq<Campaign>, st: SortState): (r: seq<Campaign>)
    ensures SortedBy(r, st)
    ensures multiset(r) == multiset(s)
    ensures |r| == |s|
  {
    if |s| == 0 then []
    else
      assert s == [s[0]] + s[1..];
      Insert(s[0], SortCampaigns(s[1..], st), st)
  }

  /** Ascending sorts leave each key no greater than the next; descending ones no smaller. */
  lemma SortedNeighboursOrdered(s: seq<Campaign>, st: SortState, i: int)
    requires SortedBy(s, st) && 0 < i < |s|
    ensures st.direction == Asc ==>
              Key(s[i - 1], st.field) == Key(s[i], st.field) || KeyLess(Key(s[i - 1], st.field), Key(s[i], st.field))
    ensures st.direction == Desc ==>
              Key(s[i - 1], st.field) == Key(s[i], st.field) || KeyLess(Key(s[i], st.field), Key(s[i - 1], st.field))
  {
    KeyLessTotal(s[i - 1], s[i], st.field);
  }

  /** Sorting an already sorted list changes nothing. */
  lemma {:induction false} SortKeepsSorted(s: seq<Campaign>, st: SortState)
    requires SortedBy(s, st)
    ensures SortCampaigns(s, st) == s
  {
    if |s| > 0 {
      SortedTail(s, st);
      SortKeepsSorted(s[1..], st);
      assert SortCampaigns(s, st) == Insert(s[0], s[1..], st);
      if |s| > 1 {
        assert s[1..][0] == s[1] && !Before(st, s[1], s[0]);
      }
      assert s == [s[0]] + s[1..];
    }
  }

  /** The records whose sort key in `field` is `key`. */
  function SameKey(field: SortField, key: SortKey): Campaign -> bool {
    c => Key(c, field) == key
  }

  lemma KeyLessIrreflexive(a: SortKey)
    ensures !KeyLess(a, a)
  {
    if a.Text? {
      StrLessIrreflexive(a.text);
    }
  }

  /** Inserting a record places it before every record of its own key already in the list. */
  lemma {:induction false} InsertStable(c: Campaign, s: seq<Campaign>, st: SortState, key: SortKey)
    requires SortedBy(s, st)
    ensures Filter(Insert(c, s, st), SameKey(st.field, key)) == Keep(c, SameKey(st.field, key)) + Filter(s, SameKey(st.field, key))
  {
    var p := SameKey(st.field, key);
    if |s| == 0 {
      FilterCons(c, [], p);
    } else if Before(st, s[0], c) {
      SortedTail(s, st);
      InsertStable(c, s[1..], st, key);
      var rest := Insert(c, s[1..], st);
      FilterCons(s[0], rest, p);
      FilterCons(s[0], s[1..], p);
      assert s == [s[0]] + s[1..];
      KeyLessIrreflexive(Key(c, st.field));
      assert Keep(s[0], p) == [] || Keep(c, p) == [];
    } else {
      FilterCons(c, s, p);
    }
  }

  /**
   The sort is stable: for every key, the records with that key appear in the
   sorted list in the same order as in the input.
   */
  lemma {:induction false} SortStable(s: seq<Campaign>, st: SortState, key: SortKey)
    ensures Filter(SortCampaigns(s, st), SameKey(st.field, key)) == Filter(s, SameKey(st.field, key))
  {
    if |s| > 0 {
      SortStable(s[1..], st, key);
      InsertStable(s[0], SortCampaigns(s[1..], st), st, key);
      FilterCons(s[0], s[1..], SameKey(st.field, key));
      assert s == [s[0]] + s[1..];
    }
  }

  /** Sorting twice by the same column and direction is sorting once. */
  lemma SortIdempotent(s: seq<Campaign>, st: SortState)
    ensures SortCampaigns(SortCampaigns(s, st), st) == SortCampaigns(s, st)
  {
    SortKeepsSorted(SortCampaigns(s, st), st);
  }

  // ---------------------------------------------------------------------------
  // The table as shown

  /** What the table shows: a page of rows, the filtered count, and the page count. */
  datatype View = View(rows: seq<Campaign>, totalCount: nat, totalPages: nat)

  /** The filtered and sorted rows of the table (`filteredAndSortedData`). */
  function FilteredAndSorted(data: seq<Campaign>, f: FilterState, st: SortState): (r: seq<Campaign>)
    ensures multiset(r) == multiset(FilterCampaigns(data, f))
    ensures SortedBy(r, st)
    ensures forall c :: c in r <==> c in data && AllCriteriaHold(f, c)
  {
    var r := SortCampaigns(FilterCampaigns(data, f), st);
    assert forall c :: c in r <==> c in multiset(r);
    r
  }

  /** Every page of a sorted list is sorted. */
  lemma PageOfSorted(all: seq<Campaign>, st: SortState, page: int)
    requires SortedBy(all, st) && page >= 1
    ensures SortedBy(Page(all, page), st)
  {
    var rows := Page(all, page);
    forall i | 0 < i < |rows|
      ensures !Before(st, rows[i], rows[i - 1])
    {
      assert rows[i] == all[(page - 1) * PageSize + i] && rows[i - 1] == all[(page - 1) * PageSize + i - 1];
    }
  }

  /** One render of the table for the current criteria, sort and page. */
  function DeriveView(data: seq<Campaign>, f: FilterState, st: SortState, page: int): (v: View)
    requires page >= 1
    ensures |v.rows| <= PageSize
    ensures forall c :: c in v.rows ==> c in data && AllCriteriaHold(f, c)
    ensures v.totalCount == |FilterCampaigns(data, f)|
    ensures v.totalPages * PageSize >= v.totalCount && (v.totalPages - 1) * PageSize < v.totalCount
    ensures v.totalCount == 0 ==> v.rows == []
    ensures v.rows == Page(FilteredAndSorted(data, f, st), page)
    ensures SortedBy(v.rows, st)
    ensures page <= v.totalPages ==> |v.rows| == Min(PageSize, v.totalCount - (page - 1) * PageSize)
  {
    var all := FilteredAndSorted(data, f, st);
    var rows := Page(all, page);
    PageOfSorted(all, st, page);
    PageMembers(all, page);
    assert page <= TotalPages(|all|) ==> |rows| == Min(PageSize, |all| - (page - 1) * PageSize) by {
      if page <= TotalPages(|all|) {
        PageLength(all, page);
      }
    }
    View(rows, |all|, TotalPages(|all|))
  }

  /** The status-"active" criterion accepts campaigns 1, 3 and 5 and rejects the others. */
  lemma ActiveStatusKeeps()
    ensures Filter(Data, PassesFor(DefaultFilters.(status := "active"))) == [SummerSale, ProductLaunch, Retargeting]
  {
    var p := PassesFor(DefaultFilters.(status := "active"));
    assert Keep(SummerSale, p) == [SummerSale];
    assert Keep(BrandAwareness, p) == [];
    assert Keep(ProductLaunch, p) == [ProductLaunch];
    assert Keep(HolidaySpecial, p) == [];
    assert Keep(Retargeting, p) == [Retargeting];
    FilterFive(Data, p);
  }

  /** Status "active" keeps campaigns 1, 3 and 5, in the order of the data. */
  lemma ActiveStatusFilter()
    ensures FilterCampaigns(Data, DefaultFilters.(status := "active")) == [SummerSale, ProductLaunch, Retargeting]
  {
    ActiveStatusKeeps();
  }

  /** Sorting the active campaigns by name puts "Product Launch" first and "Summer Sale 2024" last. */
  lemma ActiveCampaignsByName()
    ensures SortCampaigns([SummerSale, ProductLaunch, Retargeting], InitialSort) == [ProductLaunch, Retargeting, SummerSale]
  {
    var kept := [SummerSale, ProductLaunch, Retargeting];
    assert kept[1..] == [ProductLaunch, Retargeting];
    SortLaunchAndRetargeting();
    InsertSummerSale();
  }

  /** "Product Launch" already precedes "Retargeting Campaign". */
  lemma SortLaunchAndRetargeting()
    ensures SortCampaigns([ProductLaunch, Retargeting], InitialSort) == [ProductLaunch, Retargeting]
  {
    assert !StrLess(Retargeting.name, ProductLaunch.name);
    assert [ProductLaunch, Retargeting][1..] == [Retargeting];
    assert SortCampaigns([Retargeting], InitialSort) == [Retargeting];
  }

  /** "Summer Sale 2024" sorts after both other names. */
  lemma InsertSummerSale()
    ensures SortedBy([ProductLaunch, Retargeting], InitialSort)
    ensures Insert(SummerSale, [ProductLaunch, Retargeting], InitialSort) == [ProductLaunch, Retargeting, SummerSale]
  {
    assert !StrLess(Retargeting.name, ProductLaunch.name);
    assert StrLess(ProductLaunch.name, SummerSale.name);
    assert StrLess(Retargeting.name, SummerSale.name);
    assert [ProductLaunch, Retargeting][1..] == [Retargeting];
    assert Insert(SummerSale, [Retargeting], InitialSort) == [Retargeting, SummerSale];
  }

  /** Filtered by status "active" and sorted by name, the table lists campaigns 3, 5, 1. */
  lemma ActiveStatusSorted()
    ensures FilteredAndSorted(Data, DefaultFilters.(status := "active"), InitialSort) == [ProductLaunch, Retargeting, SummerSale]
  {
    ActiveStatusFilter();
    ActiveCampaignsByName();
  }

  /** Under the initial sort (name, ascending) the first page shows campaigns 3, 5, 1. */
  lemma ActiveStatusScenario()
    ensures DeriveView(Data, DefaultFilters.(status := "active"), InitialSort, 1).rows == [ProductLaunch, Retargeting, SummerSale]
  {
    ActiveStatusSorted();
    var rows := [ProductLaunch, Retargeting, SummerSale];
    assert Page(rows, 1) == rows;
  }

  /** The budget window 4000..7000 accepts campaigns 1 and 4 and rejects the others. */
  lemma BudgetWindowKeeps()
    ensures Filter(Data, PassesFor(DefaultFilters.(minBudget := 4000.0, maxBudget := 7000.0))) == [SummerSale, HolidaySpecial]
  {
    var p := PassesFor(DefaultFilters.(minBudget := 4000.0, maxBudget := 7000.0));
    assert Keep(SummerSale, p) == [SummerSale];
    assert Keep(BrandAwareness, p) == [];
    assert Keep(ProductLaunch, p) == [];
    assert Keep(HolidaySpecial, p) == [HolidaySpecial];
    assert Keep(Retargeting, p) == [];
    FilterFive(Data, p);
  }

  /** Budgets between 4000 and 7000 keep campaigns 1 and 4. */
  lemma BudgetWindowScenario()
    ensures FilterCampaigns(Data, DefaultFilters.(minBudget := 4000.0, maxBudget := 7000.0)) == [SummerSale, HolidaySpecial]
  {
    BudgetWindowKeeps();
  }
}

=== FILE: exports.dfy ===
/**
 Export history (src/components/export-functionality.tsx): a requested export
 is prepended as "processing" and later that record, and only it, is marked
 "completed"; long file names are shortened for display, keeping the extension.
 */
module Exports {

  datatype ExportKind = Pdf | Csv

  datatype ExportStatus = Completed | Processing | Failed

  /**
   One export. `handle` stands for the record's object identity, which the
   completion step compares with `===`; `date` is a clock reading in milliseconds.
   */
  datatype ExportRecord = ExportRecord(
    handle: nat,
    kind: ExportKind,
    name: string,
    size: string,
    date: int,
    status: ExportStatus)

  /** The history, newest first, and the identity the next record will get. */
  datatype ExportHistory = ExportHistory(records: seq<ExportRecord>, nextHandle: nat)

  /** Every record has its own identity, and none has been handed out yet for the next one. */
  predicate Valid(h: ExportHistory) {
    && (forall i :: 0 <= i < |h.records| ==> h.records[i].handle < h.nextHandle)
    && (forall i, j :: 0 <= i < j < |h.records| ==> h.records[i].handle != h.records[j].handle)
  }

  /** The two completed exports the history starts with; `now` is the clock at start-up. */
  function InitialHistory(now: int): (h: ExportHistory)
    ensures Valid(h) && |h.records| == 2
    ensures forall i :: 0 <= i < |h.records| ==> h.records[i].status == Completed
  {
    ExportHistory([
      ExportRecord(0, Pdf, "Dashboard_Report_Aug_2024.pdf", "2.4 MB", now - 3600000, Completed),
      ExportRecord(1, Csv, "Campaign_Data_Aug_2024.csv", "1.8 MB", now - 7200000, Completed)
    ], 2)
  }

  /** The file extension of each kind: the kind's own name. */
  function Extension(k: ExportKind): string {
    match k
    case Pdf => "pdf"
    case Csv => "csv"
  }

  /** `type.toUpperCase()`. */
  function UpperName(k: ExportKind): string {
    match k
    case Pdf => "PDF"
    case Csv => "CSV"
  }

  /** The simulated size of each kind. */
  function SimulatedSize(k: ExportKind): string {
    match k
    case Pdf => "2.1 MB"
    case Csv => "1.5 MB"
  }

  /** `.replace(/\//g, '_')`: every slash becomes an underscore. */
  function ReplaceSlashes(s: string): (r: string)
    ensures |r| == |s|
    ensures '/' !in r
    ensures forall i :: 0 <= i < |s| && s[i] != '/' ==> r[i] == s[i]
    ensures forall i :: 0 <= i < |s| && s[i] == '/' ==> r[i] == '_'
  {
    if |s| == 0 then []
    else [if s[0] == '/' then '_' else s[0]] + ReplaceSlashes(s[1..])
  }

  /**
   The name of a new export: kind in capitals, "_Report_", the date text with
   slashes made underscores, then "." and the extension. `dateText` is what
   `toLocaleDateString()` returned.
   */
  function ExportFileName(k: ExportKind, dateText: string): (name: string)
    ensures |name| == 15 + |dateText|
    ensures name[|name| - 4..] == "." + Extension(k)
    ensures name[..11] == UpperName(k) + "_Report_"
    ensures name[11..|name| - 4] == ReplaceSlashes(dateText)
    ensures '/' !in name
  {
    var prefix := UpperName(k) + "_Report_";
    var suffix := "." + Extension(k);
    assert |prefix| == 11 && |suffix| == 4 && '/' !in prefix && '/' !in suffix;
    ThreeParts(prefix, ReplaceSlashes(dateText), suffix);
    prefix + ReplaceSlashes(dateText) + suffix
  }

  /** The three parts of `a + b + c` can be read back by position. */
  lemma ThreeParts(a: string, b: string, c: string)
    ensures var s := a + b + c;
            |s| == |a| + |b| + |c| && s[..|a|] == a && s[|a|..|s| - |c|] == b && s[|s| - |c|..] == c
  {
  }

  /**
   `handleExport(type)`, first half: a new "processing" record goes on top;
   returns the new history and the handle of the new record.
   */
  function HandleExport(h: ExportHistory, k: ExportKind, dateText: string, now: int): (r: (ExportHistory, nat))
    ensures Valid(h) ==> Valid(r.0)
    ensures |r.0.records| == |h.records| + 1
    ensures r.0.records[1..] == h.records
    ensures r.0.records[0].handle == r.1 && (Valid(h) ==> r.1 !in HandlesOf(h))
    ensures r.0.records[0].status == Processing && r.0.records[0].kind == k
    ensures r.0.records[0].size == SimulatedSize(k)
    ensures r.0.records[0].name == ExportFileName(k, dateText)
  {
    var created := ExportRecord(h.nextHandle, k, ExportFileName(k, dateText), SimulatedSize(k), now, Processing);
    var r := ExportHistory([created] + h.records, h.nextHandle + 1);
    assert r.records[1..] == h.records;
    (r, h.nextHandle)
  }

  /** The handles in use. */
  function HandlesOf(h: ExportHistory): set<nat> {
    set i | 0 <= i < |h.records| :: h.records[i].handle
  }

  /**
   `handleExport(type)`, second half, after the delay: the record with this
   identity becomes "completed"; every other record is left as it is.
   */
  function CompleteExport(h: ExportHistory, handle: nat): (r: ExportHistory)
    ensures |r.records| == |h.records| && r.nextHandle == h.nextHandle
    ensures forall i :: 0 <= i < |h.records| && h.records[i].handle != handle ==> r.records[i] == h.records[i]
    ensures forall i :: 0 <= i < |h.records| && h.records[i].handle == handle ==>
              r.records[i] == h.records[i].(status := Completed)
    ensures Valid(h) ==> Valid(r)
  {
    h.(records := seq(|h.records|, i requires 0 <= i < |h.records| =>
                       if h.records[i].handle == handle then h.records[i].(status := Completed) else h.records[i]))
  }

  /**
   Export then completion: the new record ends up "completed" on top, and the
   older history is exactly as it was.
   */
  lemma ExportThenComplete(h: ExportHistory, k: ExportKind, dateText: string, now: int)
    requires Valid(h)
    ensures var (started, handle) := HandleExport(h, k, dateText, now);
            var done := CompleteExport(started, handle);
            && done.records[0] == started.records[0].(status := Completed)
            && done.records[1..] == h.records
  {
    var (started, handle) := HandleExport(h, k, dateText, now);
    var done := CompleteExport(started, handle);
    forall i | 1 <= i < |started.records|
      ensures done.records[i] == started.records[i]
    {
      assert started.records[i] == h.records[i - 1];
      assert started.records[i].handle in HandlesOf(h);
    }
  }

  /**
   A completion that fires after more exports were requested still finds its
   record wherever it now is, and changes nothing else.
   */
  lemma CompletionFindsItsRecord(h: ExportHistory, handle: nat, i: nat)
    requires Valid(h) && i < |h.records| && h.records[i].handle == handle
    ensures CompleteExport(h, handle).records[i].status == Completed
    ensures forall j :: 0 <= j < |h.records| && j != i ==> CompleteExport(h, handle).records[j] == h.records[j]
  {
  }

  // ---------------------------------------------------------------------------
  // File-name truncation

  /** `s.lastIndexOf(c)`: the last position of `c`, or -1. */
  function LastIndexOf(s: string, c: char): (r: int)
    ensures -1 <= r < |s|
    ensures r >= 0 ==> s[r] == c
    ensures forall j :: r < j < |s| ==> s[j] != c
  {
    if |s| == 0 then -1
    else if s[|s| - 1] == c then |s| - 1
    else LastIndexOf(s[..|s| - 1], c)
  }

  /** `s.substring(start, end)`: both ends clamped into the string, and swapped if reversed. */
  function Substring(s: string, start: int, end: int): (r: string)
    ensures |r| <= |s|
  {
    var a := if start < 0 then 0 else if start > |s| then |s| else start;
    var b := if end < 0 then 0 else if end > |s| then |s| else end;
    if a <= b then s[a..b] else s[b..a]
  }

  /** `name.split('.').pop()`: the text after the last dot, or the whole name when it has none. */
  function AfterLastDot(name: string): (r: string)
    ensures '.' !in r
    ensures |r| <= |name| && r == name[|name| - |r|..]
    ensures '.' !in name ==> r == name
    ensures '.' in name ==> |r| < |name| && name[|name| - |r| - 1] == '.'
  {
    var dot := LastIndexOf(name, '.');
    if dot < 0 then name else name[dot + 1..]
  }

  /**
   `truncateFileName(name, maxLength)` exactly as written. For a long name without
   a dot, `split('.').pop()` is the whole name and `lastIndexOf` is -1, so the
   result is "...." followed by the whole name.
   */
  function TruncateAsWritten(name: string, maxLength: int): string {
    if |name| <= maxLength then name
    else
      var extension := AfterLastDot(name);
      var nameWithoutExt := Substring(name, 0, LastIndexOf(name, '.'));
      var truncated := Substring(nameWithoutExt, 0, maxLength - 3) + "...";
      if extension != "" then truncated + "." + extension else truncated
  }

  /** A long name without a dot comes out longer than it went in. */
  lemma TruncateAsWrittenGrowsDotlessNames(name: string, maxLength: int)
    requires '.' !in name && |name| > maxLength && |name| > 0
    ensures TruncateAsWritten(name, maxLength) == "...." + name
    ensures |TruncateAsWritten(name, maxLength)| > |name|
  {
    assert LastIndexOf(name, '.') == -1;
    assert AfterLastDot(name) == name;
    assert Substring(name, 0, -1) == "";
    assert Substring("", 0, maxLength - 3) == "";
  }

  /**
   `truncateFileName` as evidently intended: names that fit are kept; a long name
   keeps the first `maxLength - 3` characters of its stem, "...", and its
   extension; a long name without a dot is cut to `maxLength - 3` characters and "...".
   */
  function TruncateFileName(name: string, maxLength: int): (r: string)
    ensures |name| <= maxLength ==> r == name
    ensures |name| > maxLength && '.' !in name && maxLength >= 3 ==>
              |r| == maxLength && r == name[..maxLength - 3] + "..."
  {
    if |name| <= maxLength then name
    else
      var dot := LastIndexOf(name, '.');
      var stem := if dot < 0 then name else name[..dot];
      var truncated := Substring(stem, 0, maxLength - 3) + "...";
      var extension := if dot < 0 then "" else name[dot + 1..];
      if extension != "" then truncated + "." + extension else truncated
  }

  /** A long dotted name still ends in "." and its extension. */
  lemma TruncateKeepsExtension(name: string, maxLength: int)
    requires |name| > maxLength && '.' in name && AfterLastDot(name) != ""
    ensures var ext := AfterLastDot(name);
            var r := TruncateFileName(name, maxLength);
            |r| > |ext| && r[|r| - |ext| - 1..] == "." + ext
  {
  }

  /**
   A long dotted name becomes the first min(stem length, `maxLength - 3`) characters
   of its stem, "...", and, when it has one, "." and its extension.
   */
  lemma TruncateDottedName(name: string, maxLength: int)
    requires |name| > maxLength >= 3 && '.' in name
    ensures var dot := LastIndexOf(name, '.');
            var keep := if dot < maxLength - 3 then dot else maxLength - 3;
            var ext := name[dot + 1..];
            TruncateFileName(name, maxLength)
              == if ext != "" then name[..keep] + "..." + "." + ext else name[..keep] + "..."
  {
    var dot := LastIndexOf(name, '.');
    assert dot >= 0;
    var cut := Substring(name[..dot], 0, maxLength - 3);
    var ext := name[dot + 1..];
    StemCut(name, dot, maxLength);
  }

  /** A long dotted name keeps the start of its stem, up to `maxLength - 3` characters, then "...". */
  lemma TruncateKeepsStemStart(name: string, maxLength: int)
    requires |name| > maxLength >= 3 && '.' in name
    ensures var dot := LastIndexOf(name, '.');
            var keep := if dot < maxLength - 3 then dot else maxLength - 3;
            var r := TruncateFileName(name, maxLength);
            |r| >= keep + 3 && r[..keep] == name[..keep] && r[keep..keep + 3] == "..."
  {
    var dot := LastIndexOf(name, '.');
    assert dot >= 0;
    var cut := Substring(name[..dot], 0, maxLength - 3);
    var extension := name[dot + 1..];
    var r := TruncateFileName(name, maxLength);
    assert r == (cut + "...") + (if extension != "" then "." + extension else "");
    StemCut(name, dot, maxLength);
    CutThenDots(cut, if extension != "" then "." + extension else "");
  }

  /** Cutting the stem before position `dot` keeps its first min(dot, maxLength - 3) characters. */
  lemma StemCut(name: string, dot: int, maxLength: int)
    requires 0 <= dot < |name| && maxLength >= 3
    ensures var keep := if dot < maxLength - 3 then dot else maxLength - 3;
            Substring(name[..dot], 0, maxLength - 3) == name[..keep]
  {
  }

  /** A kept stem followed by "..." and anything else starts with that stem and the dots. */
  lemma CutThenDots(cut: string, rest: string)
    ensures var r := (cut + "...") + rest;
            |r| >= |cut| + 3 && r[..|cut|] == cut && r[|cut|..|cut| + 3] == "..."
  {
    var r := (cut + "...") + rest;
    assert r[..|cut| + 3] == cut + "...";
  }

  /** Both versions agree on every name that has a dot. */
  lemma TruncateAgreesWhenDotted(name: string, maxLength: int)
    requires '.' in name
    ensures TruncateFileName(name, maxLength) == TruncateAsWritten(name, maxLength)
  {
  }

  /** The default limit of `truncateFileName`. */
  const DisplayLength: int := 25

  /** A name ending in "." and a dot-free extension has that extension after its last dot. */
  lemma DotBeforeExtension(name: string, ext: string)
    requires '.' !in ext && |name| > |ext|
    requires name[|name| - |ext| - 1..] == "." + ext
    ensures LastIndexOf(name, '.') == |name| - |ext| - 1
    ensures AfterLastDot(name) == ext
  {
    var d := |name| - |ext| - 1;
    assert name[d] == '.' by {
      assert name[d] == name[d..][0];
    }
    assert name[d + 1..] == ext by {
      assert name[d + 1..] == name[d..][1..];
    }
    assert forall j :: d < j < |name| ==> name[j] != '.' by {
      forall j | d < j < |name|
        ensures name[j] != '.'
      {
        assert name[j] == ext[j - d - 1];
      }
    }
  }

  /** The shortened name shown for a new export keeps its extension. */
  lemma ExportNameKeepsExtension(k: ExportKind, dateText: string)
    ensures var shown := TruncateFileName(ExportFileName(k, dateText), DisplayLength);
            shown[|shown| - 4..] == "." + Extension(k)
  {
    var name := ExportFileName(k, dateText);
    DotBeforeExtension(name, Extension(k));
    if |name| > DisplayLength {
      TruncateKeepsExtension(name, DisplayLength);
    }
  }
}

=== FILE: filter_store.dfy ===
/**
 The session-wide filter store (src/contexts/filter-context.tsx): the filter
 criteria, the list of active-filter labels, a single-field update, a reset to
 the defaults, and the accessor that fails outside its provider.
 */
module FilterStore {
  import opened Wrappers

  /** A date range; each end is an ISO date string, "" meaning unbounded. */
  datatype DateRange = DateRange(start: string, end: string)

  /**
   The filter criteria. Every field has an inactive value: "" for the dates and
   the search term, "all" for the type and status, 0 for the numbers, false for
   the active-only switch. The numbers come from `parseFloat` and may be fractional.
   */
  datatype FilterState = FilterState(
    dateRange: DateRange,
    campaignType: string,
    status: string,
    minBudget: real,
    maxBudget: real,
    minConversion: real,
    showOnlyActive: bool,
    searchTerm: string)

  /** The names of the fields of `FilterState` (`keyof FilterState`). */
  datatype FilterKey =
    | DateRangeKey | CampaignTypeKey | StatusKey | MinBudgetKey
    | MaxBudgetKey | MinConversionKey | ShowOnlyActiveKey | SearchTermKey

  /** The value of one field, whatever its type. */
  datatype FilterValue =
    | RangeValue(range: DateRange)
    | TextValue(text: string)
    | NumberValue(number: real)
    | FlagValue(flag: bool)

  /** One `updateFilter(key, value)` call, with the value of the type the key's field has. */
  datatype FilterUpdate =
    | SetDateRange(range: DateRange)
    | SetCampaignType(campaignType: string)
    | SetStatus(status: string)
    | SetMinBudget(minBudget: real)
    | SetMaxBudget(maxBudget: real)
    | SetMinConversion(minConversion: real)
    | SetShowOnlyActive(showOnlyActive: bool)
    | SetSearchTerm(searchTerm: string)
  {
    /** The field this update writes. */
    function Key(): FilterKey {
      match this
      case SetDateRange(_) => DateRangeKey
      case SetCampaignType(_) => CampaignTypeKey
      case SetStatus(_) => StatusKey
      case SetMinBudget(_) => MinBudgetKey
      case SetMaxBudget(_) => MaxBudgetKey
      case SetMinConversion(_) => MinConversionKey
      case SetShowOnlyActive(_) => ShowOnlyActiveKey
      case SetSearchTerm(_) => SearchTermKey
    }

    /** The value this update writes. */
    function Value(): FilterValue {
      match this
      case SetDateRange(v) => RangeValue(v)
      case SetCampaignType(v) => TextValue(v)
      case SetStatus(v) => TextValue(v)
      case SetMinBudget(v) => NumberValue(v)
      case SetMaxBudget(v) => NumberValue(v)
      case SetMinConversion(v) => NumberValue(v)
      case SetShowOnlyActive(v) => FlagValue(v)
      case SetSearchTerm(v) => TextValue(v)
    }
  }

  /** Reads one field: `filters[key]`. */
  function Get(f: FilterState, k: FilterKey): FilterValue {
    match k
    case DateRangeKey => RangeValue(f.dateRange)
    case CampaignTypeKey => TextValue(f.campaignType)
    case StatusKey => TextValue(f.status)
    case MinBudgetKey => NumberValue(f.minBudget)
    case MaxBudgetKey => NumberValue(f.maxBudget)
    case MinConversionKey => NumberValue(f.minConversion)
    case ShowOnlyActiveKey => FlagValue(f.showOnlyActive)
    case SearchTermKey => TextValue(f.searchTerm)
  }

  /** The value of a field that means "not filtering on this dimension". */
  function Sentinel(k: FilterKey): FilterValue {
    match k
    case DateRangeKey => RangeValue(DateRange("", ""))
    case CampaignTypeKey => TextValue("all")
    case StatusKey => TextValue("all")
    case MinBudgetKey => NumberValue(0.0)
    case MaxBudgetKey => NumberValue(0.0)
    case MinConversionKey => NumberValue(0.0)
    case ShowOnlyActiveKey => FlagValue(false)
    case SearchTermKey => TextValue("")
  }

  /** `defaultFilters`, the criteria a session starts with and `clearFilters` restores. */
  const DefaultFilters := FilterState(DateRange("", ""), "all", "all", 0.0, 0.0, 0.0, false, "")

  /** The default criteria are exactly the ones with every field at its inactive value. */
  lemma DefaultFiltersAreInactive(f: FilterState)
    ensures f == DefaultFilters <==> forall k :: Get(f, k) == Sentinel(k)
  {
    if forall k :: Get(f, k) == Sentinel(k) {
      assert Get(f, DateRangeKey) == Sentinel(DateRangeKey);
      assert Get(f, CampaignTypeKey) == Sentinel(CampaignTypeKey);
      assert Get(f, StatusKey) == Sentinel(StatusKey);
      assert Get(f, MinBudgetKey) == Sentinel(MinBudgetKey);
      assert Get(f, MaxBudgetKey) == Sentinel(MaxBudgetKey);
      assert Get(f, MinConversionKey) == Sentinel(MinConversionKey);
      assert Get(f, ShowOnlyActiveKey) == Sentinel(ShowOnlyActiveKey);
      assert Get(f, SearchTermKey) == Sentinel(SearchTermKey);
    }
  }

  /** `updateFilter(key, value)` on the criteria: `{ ...prev, [key]: value }`. */
  function UpdateFilter(f: FilterState, u: FilterUpdate): (r: FilterState)
    ensures Get(r, u.Key()) == u.Value()
    ensures forall k :: k != u.Key() ==> Get(r, k) == Get(f, k)
  {
    match u
    case SetDateRange(v) => f.(dateRange := v)
    case SetCampaignType(v) => f.(campaignType := v)
    case SetStatus(v) => f.(status := v)
    case SetMinBudget(v) => f.(minBudget := v)
    case SetMaxBudget(v) => f.(maxBudget := v)
    case SetMinConversion(v) => f.(minConversion := v)
    case SetShowOnlyActive(v) => f.(showOnlyActive := v)
    case SetSearchTerm(v) => f.(searchTerm := v)
  }

  /** Criteria agreeing on every field are the same criteria. */
  lemma FieldsDetermineFilters(f: FilterState, g: FilterState)
    requires forall k :: Get(f, k) == Get(g, k)
    ensures f == g
  {
    assert Get(f, DateRangeKey) == Get(g, DateRangeKey);
    assert Get(f, CampaignTypeKey) == Get(g, CampaignTypeKey);
    assert Get(f, StatusKey) == Get(g, StatusKey);
    assert Get(f, MinBudgetKey) == Get(g, MinBudgetKey);
    assert Get(f, MaxBudgetKey) == Get(g, MaxBudgetKey);
    assert Get(f, MinConversionKey) == Get(g, MinConversionKey);
    assert Get(f, ShowOnlyActiveKey) == Get(g, ShowOnlyActiveKey);
    assert Get(f, SearchTermKey) == Get(g, SearchTermKey);
  }

  /** Writing the same field with the same value twice has the effect of writing it once. */
  lemma UpdateFilterIdempotent(f: FilterState, u: FilterUpdate)
    ensures UpdateFilter(UpdateFilter(f, u), u) == UpdateFilter(f, u)
  {
    var once := UpdateFilter(f, u);
    var twice := UpdateFilter(once, u);
    FieldsDetermineFilters(twice, once);
  }

  /** Writes to two different fields commute. */
  lemma UpdateFilterCommutes(f: FilterState, u: FilterUpdate, v: FilterUpdate)
    requires u.Key() != v.Key()
    ensures UpdateFilter(UpdateFilter(f, u), v) == UpdateFilter(UpdateFilter(f, v), u)
  {
    FieldsDetermineFilters(UpdateFilter(UpdateFilter(f, u), v), UpdateFilter(UpdateFilter(f, v), u));
  }

  /**
   What a number input stores: `parseFloat(text) || 0`. `parsed` is what
   `parseFloat` returned, `None` standing for `NaN`; `NaN` and zero both become 0.
   */
  function CoerceNumber(parsed: Option<real>): (r: real)
    ensures parsed.None? ==> r == 0.0
    ensures parsed.Some? ==> r == parsed.value
  {
    match parsed
    case None => 0.0
    case Some(v) => v
  }

  /** The provider's state: the criteria and the separately kept active-filter labels. */
  datatype Store = Store(filters: FilterState, activeFilters: seq<string>)

  /** The state a `FilterProvider` starts with. */
  const InitialStore := Store(DefaultFilters, [])

  /** `updateFilter` on the store: changes one criterion, leaves the labels alone. */
  function StoreUpdateFilter(s: Store, u: FilterUpdate): (r: Store)
    ensures Get(r.filters, u.Key()) == u.Value()
    ensures forall k :: k != u.Key() ==> Get(r.filters, k) == Get(s.filters, k)
    ensures r.activeFilters == s.activeFilters
  {
    s.(filters := UpdateFilter(s.filters, u))
  }

  /** `clearFilters`: every criterion back to its inactive value, and no labels. */
  function ClearFilters(s: Store): (r: Store)
    ensures forall k :: Get(r.filters, k) == Sentinel(k)
    ensures |r.activeFilters| == 0
  {
    Store(DefaultFilters, [])
  }

  /** Clearing from any state returns the provider to the state it started in. */
  lemma ClearFiltersRestoresInitialStore(s: Store)
    ensures ClearFilters(s) == InitialStore
  {
    var r := ClearFilters(s);
    DefaultFiltersAreInactive(r.filters);
  }

  /** `setActiveFilters`: replaces the labels, leaves the criteria alone. */
  function SetActiveFilters(s: Store, labels: seq<string>): (r: Store)
    ensures r.filters == s.filters && r.activeFilters == labels
  {
    s.(activeFilters := labels)
  }

  /** The message `useFilters` throws outside a provider. */
  const OutsideProviderError := "useFilters must be used within a FilterProvider"

  /**
   `useFilters()`: `context` is what `useContext` returned, `None` when there is no
   enclosing provider, which is an error and never a silent default.
   */
  function UseFilters(context: Option<Store>): (r: Result<Store, string>)
    ensures r.Failure? <==> context.None?
    ensures r.Failure? ==> r.error == OutsideProviderError
    ensures r.Success? ==> r.value == context.value
  {
    match context
    case None => Failure(OutsideProviderError)
    case Some(s) => Success(s)
  }
}

=== FILE: live_feed.dfy ===
/**
 The live activity feed (src/components/real-time-updates.tsx): a generator of
 synthetic events and a buffer holding the five most recent, filled on every
 timer tick while connected. The random choices are index arguments, the clock
 an opaque timestamp, and a tick an explicit call.
 */
module LiveFeed {

  datatype EventKind = Revenue | Users | Conversions | CampaignEvent

  datatype EventStatus = Success | Warning | Error

  /** One feed entry (`UpdateData`). */
  datatype Event = Event(
    id: string,
    kind: EventKind,
    message: string,
    value: string,
    timestamp: nat,
    status: EventStatus)

  /** `types`, in the order a random index picks from. */
  const Kinds := [Revenue, Users, Conversions, CampaignEvent]

  /** `statuses`, in the order a random index picks from. */
  const Statuses := [Success, Warning, Error]

  /** The message pool of each kind (`messages[type]`). */
  function Messages(k: EventKind): seq<string> {
    match k
    case Revenue => ["New sale completed", "Revenue milestone reached", "Payment processed", "Subscription renewed"]
    case Users => ["New user registered", "User completed onboarding", "Active user milestone", "User engagement increased"]
    case Conversions => ["Lead converted to customer", "Conversion rate improved", "New conversion milestone", "Campaign conversion success"]
    case CampaignEvent => ["Campaign performance improved", "New campaign launched", "Campaign budget updated", "Campaign target reached"]
  }

  /** The display-value pool of each kind (`values[type]`). */
  function Values(k: EventKind): seq<string> {
    match k
    case Revenue => ["$1,234", "$5,678", "$12,345", "$2,500"]
    case Users => ["+15", "+23", "+8", "+45"]
    case Conversions => ["+2.3%", "+1.8%", "+5.2%", "+3.1%"]
    case CampaignEvent => ["+12%", "+8%", "+15%", "+22%"]
  }

  /**
   `generateUpdate()`. Each `Math.floor(Math.random() * n)` is an index below `n`;
   the message and value are drawn from the pools of the kind drawn first.
   Every event kind and status is listed in `Kinds` and `Statuses`, so the first
   postcondition holds by typing alone; it records that the drawn values are
   among the ones the source lists.
   */
  function GenerateUpdate(kindIndex: nat, statusIndex: nat, messageIndex: nat, valueIndex: nat,
                          id: string, now: nat): (e: Event)
    requires kindIndex < |Kinds| && statusIndex < |Statuses|
    requires messageIndex < |Messages(Kinds[kindIndex])| && valueIndex < |Values(Kinds[kindIndex])|
    ensures e.kind in Kinds && e.status in Statuses
    ensures e.message in Messages(e.kind) && e.value in Values(e.kind)
    ensures e.id == id && e.timestamp == now
  {
    var kind := Kinds[kindIndex];
    Event(id, kind, Messages(kind)[messageIndex], Values(kind)[valueIndex], now, Statuses[statusIndex])
  }

  /** No message and no value is shared by two kinds, so each event's text names its own kind. */
  lemma PoolsAreDisjoint(k1: EventKind, k2: EventKind)
    requires k1 != k2
    ensures forall m :: m in Messages(k1) ==> m !in Messages(k2)
    ensures forall v :: v in Values(k1) ==> v !in Values(k2)
  {
    MessagePoolsDisjoint(k1, k2);
    ValuePoolsDisjoint(k1, k2);
  }

  lemma MessagePoolsDisjoint(k1: EventKind, k2: EventKind)
    requires k1 != k2
    ensures forall m :: m in Messages(k1) ==> m !in Messages(k2)
  {
  }

  lemma ValuePoolsDisjoint(k1: EventKind, k2: EventKind)
    requires k1 != k2
    ensures forall v :: v in Values(k1) ==> v !in Values(k2)
  {
  }

  /** How many events the feed keeps. */
  const Capacity: nat := 5

  /** The feed: the most recent events, newest first, and whether it is live. */
  datatype Feed = Feed(updates: seq<Event>, connected: bool)

  /** The feed a page starts with: empty and connected. */
  const InitialFeed := Feed([], true)

  /**
   One timer tick: when connected, `[newUpdate, ...prev.slice(0, 4)]`; when
   disconnected, nothing happens.
   */
  function Tick(f: Feed, e: Event): (r: Feed)
    ensures r.connected == f.connected
    ensures !f.connected ==> r == f
    ensures f.connected ==> |r.updates| == if |f.updates| < Capacity then |f.updates| + 1 else Capacity
    ensures f.connected ==> r.updates[0] == e && r.updates[1..] <= f.updates
    ensures |f.updates| <= Capacity ==> |r.updates| <= Capacity
  {
    if f.connected then
      var kept := if |f.updates| < Capacity - 1 then |f.updates| else Capacity - 1;
      f.(updates := [e] + f.updates[..kept])
    else
      f
  }

  /** `setIsConnected`. */
  function SetConnected(f: Feed, connected: bool): (r: Feed)
    ensures r.updates == f.updates && r.connected == connected
  {
    f.(connected := connected)
  }

  /** The feed after one tick per event, in order. */
  function Run(f: Feed, events: seq<Event>): Feed
    decreases |events|
  {
    if |events| == 0 then f else Tick(Run(f, events[..|events| - 1]), events[|events| - 1])
  }

  /** `s` backwards. */
  function Reverse<T>(s: seq<T>): (r: seq<T>)
    ensures |r| == |s|
  {
    if |s| == 0 then [] else [s[|s| - 1]] + Reverse(s[..|s| - 1])
  }

  /**
   A connected feed started empty holds the last five events produced, newest
   first: the bounded buffer evicts the oldest.
   */
  lemma {:induction false} RunKeepsMostRecent(events: seq<Event>)
    ensures Run(InitialFeed, events).updates
         == Reverse(events)[..if |events| < Capacity then |events| else Capacity]
    ensures Run(InitialFeed, events).connected
  {
    if |events| > 0 {
      var prefix := events[..|events| - 1];
      RunKeepsMostRecent(prefix);
      var e := events[|events| - 1];
      assert Reverse(events) == [e] + Reverse(prefix);
    }
  }

  /** While disconnected, ticks leave the feed as it is. */
  lemma {:induction false} DisconnectedRunIsIdle(f: Feed, events: seq<Event>)
    requires !f.connected
    ensures Run(f, events) == f
    decreases |events|
  {
    if |events| > 0 {
      DisconnectedRunIsIdle(f, events[..|events| - 1]);
    }
  }
}

=== FILE: notifications.dfy ===
/**
 The notification dropdown (src/components/notifications.tsx): the unread count,
 mark one or all as read, delete, and the unread badge.
 */
module Notifications {
  import opened Seqs

  datatype Severity = Success | Warning | Info | Error

  /** One notification; the icon is presentation and is not modelled. */
  datatype Notification = Notification(
    id: string,
    severity: Severity,
    title: string,
    message: string,
    time: string,
    read: bool)

  /** `n => !n.read` */
  function IsUnread(): Notification -> bool {
    (n: Notification) => !n.read
  }

  /** `n => n.id === id` */
  function HasId(id: string): Notification -> bool {
    (n: Notification) => n.id == id
  }

  /** `n => n.id !== id` */
  function LacksId(id: string): Notification -> bool {
    (n: Notification) => n.id != id
  }

  /** The read flags of the notifications, in list order. */
  function ReadFlags(ns: seq<Notification>): seq<bool> {
    seq(|ns|, i requires 0 <= i < |ns| => ns[i].read)
  }

  /** Filtering out the read notifications keeps one entry per `false` read flag. */
  lemma {:induction false} UnreadFilterCountsFlags(ns: seq<Notification>)
    ensures |Filter(ns, IsUnread())| == multiset(ReadFlags(ns))[false]
  {
    if |ns| > 0 {
      UnreadFilterCountsFlags(ns[1..]);
      assert ReadFlags(ns) == [ns[0].read] + ReadFlags(ns[1..]);
      assert ns == [ns[0]] + ns[1..];
    }
  }

  /** `unreadCount`: `notifications.filter(n => !n.read).length`. */
  function UnreadCount(ns: seq<Notification>): (r: nat)
    ensures r <= |ns|
    ensures r == multiset(ReadFlags(ns))[false]
    ensures r == 0 <==> forall i :: 0 <= i < |ns| ==> ns[i].read
  {
    UnreadFilterCountsFlags(ns);
    var unread := Filter(ns, IsUnread());
    assert (exists i :: 0 <= i < |ns| && !ns[i].read) ==> |unread| > 0 by {
      if i :| 0 <= i < |ns| && !ns[i].read {
        assert ns[i] in unread;
      }
    }
    assert |unread| > 0 ==> exists i :: 0 <= i < |ns| && !ns[i].read by {
      if |unread| > 0 {
        assert unread[0] in unread;
        var i :| 0 <= i < |ns| && ns[i] == unread[0];
      }
    }
    |unread|
  }

  /** `markAsRead(id)`: every notification with that id becomes read; nothing else changes. */
  function MarkAsRead(ns: seq<Notification>, id: string): (r: seq<Notification>)
    ensures |r| == |ns|
    ensures forall i :: 0 <= i < |ns| ==> r[i].read == (ns[i].read || ns[i].id == id)
    ensures forall i :: 0 <= i < |ns| ==> r[i].(read := ns[i].read) == ns[i]
  {
    seq(|ns|, i requires 0 <= i < |ns| => if ns[i].id == id then ns[i].(read := true) else ns[i])
  }

  /** Marking the same notification read twice is marking it once. */
  lemma MarkAsReadIdempotent(ns: seq<Notification>, id: string)
    ensures MarkAsRead(MarkAsRead(ns, id), id) == MarkAsRead(ns, id)
  {
  }

  /** An id that no notification has changes nothing. */
  lemma MarkAsReadUnknownId(ns: seq<Notification>, id: string)
    requires forall i :: 0 <= i < |ns| ==> ns[i].id != id
    ensures MarkAsRead(ns, id) == ns
  {
  }

  /** Marking one id read lowers the unread count by the unread notifications with that id. */
  lemma {:induction false} MarkAsReadUnreadCount(ns: seq<Notification>, id: string)
    ensures UnreadCount(MarkAsRead(ns, id)) == UnreadCount(ns) - |Filter(ns, UnreadWithId(id))|
  {
    if |ns| > 0 {
      MarkAsReadUnreadCount(ns[1..], id);
      var r := MarkAsRead(ns, id);
      assert r[1..] == MarkAsRead(ns[1..], id);
      assert r == [r[0]] + r[1..];
    }
  }

  /** `n => !n.read && n.id === id` */
  function UnreadWithId(id: string): Notification -> bool {
    (n: Notification) => !n.read && n.id == id
  }

  /** `markAllAsRead`: every notification becomes read; nothing else changes. */
  function MarkAllAsRead(ns: seq<Notification>): (r: seq<Notification>)
    ensures |r| == |ns|
    ensures forall i :: 0 <= i < |ns| ==> r[i] == ns[i].(read := true)
    ensures UnreadCount(r) == 0
  {
    seq(|ns|, i requires 0 <= i < |ns| => ns[i].(read := true))
  }

  /** Marking every id read one by one agrees with marking all read. */
  lemma {:induction false} MarkEachAsRead(ns: seq<Notification>, ids: seq<string>)
    requires forall i :: 0 <= i < |ns| ==> ns[i].id in ids
    ensures MarkAsReadAll(ns, ids) == MarkAllAsRead(ns)
  {
    MarkAsReadAllFlags(ns, ids);
  }

  /** `markAsRead` applied for each id in turn. */
  function MarkAsReadAll(ns: seq<Notification>, ids: seq<string>): seq<Notification>
    decreases |ids|
  {
    if |ids| == 0 then ns else MarkAsReadAll(MarkAsRead(ns, ids[0]), ids[1..])
  }

  /** After marking a list of ids, a notification is read iff it was, or its id was listed. */
  lemma {:induction false} MarkAsReadAllFlags(ns: seq<Notification>, ids: seq<string>)
    ensures |MarkAsReadAll(ns, ids)| == |ns|
    ensures forall i :: 0 <= i < |ns| ==>
              MarkAsReadAll(ns, ids)[i] == ns[i].(read := ns[i].read || ns[i].id in ids)
    decreases |ids|
  {
    if |ids| > 0 {
      MarkAsReadAllFlags(MarkAsRead(ns, ids[0]), ids[1..]);
      assert forall x :: x in ids <==> x == ids[0] || x in ids[1..] by {
        assert ids == [ids[0]] + ids[1..];
      }
    }
  }

  /** `deleteNotification(id)`: drops every notification with that id, keeping the rest in order. */
  function DeleteNotification(ns: seq<Notification>, id: string): (r: seq<Notification>)
    ensures forall n :: n in r <==> n in ns && n.id != id
    ensures IsSubsequence(r, ns)
    ensures |r| == |ns| - |Filter(ns, HasId(id))|
  {
    FilterIsSubsequence(ns, LacksId(id));
    FilterComplementLength(ns, HasId(id), LacksId(id));
    Filter(ns, LacksId(id))
  }

  /** Deleting an id no notification has changes nothing. */
  lemma DeleteUnknownId(ns: seq<Notification>, id: string)
    requires forall i :: 0 <= i < |ns| ==> ns[i].id != id
    ensures DeleteNotification(ns, id) == ns
  {
    FilterKeepsAll(ns, LacksId(id));
  }

  /** The red badge on the bell: hidden, or showing a text. */
  datatype Badge = Hidden | Shown(text: string)

  /** The badge for `count` unread notifications: none at 0, "9+" above 9, else the number. */
  function UnreadBadge(count: nat): (b: Badge)
    ensures b.Hidden? <==> count == 0
    ensures count > 9 ==> b == Shown("9+")
    ensures 0 < count <= 9 ==> b.Shown? && |b.text| == 1 && b.text[0] as int - '0' as int == count
  {
    if count == 0 then Hidden
    else if count > 9 then Shown("9+")
    else Shown([('0' as int + count) as char])
  }

  /** After "Mark all read" the badge disappears. */
  lemma MarkAllAsReadHidesBadge(ns: seq<Notification>)
    ensures UnreadBadge(UnreadCount(MarkAllAsRead(ns))) == Hidden
  {
  }

  /** The notifications the dropdown starts with: two unread, four read. */
  const CampaignCompleted := Notification("1", Success, "Campaign Completed", "Summer Sale 2024 campaign has reached its target with 125% performance.", "2 minutes ago", false)
  const BudgetAlert := Notification("2", Warning, "Budget Alert", "Brand Awareness Q1 campaign is approaching 80% of allocated budget.", "15 minutes ago", false)
  const NewUserSignup := Notification("3", Info, "New User Signup", "John Smith from TechCorp has signed up for premium analytics.", "1 hour ago", true)
  const RevenueMilestone := Notification("4", Success, "Revenue Milestone", "Monthly revenue target achieved! $1.2M in August 2024.", "3 hours ago", true)
  const SystemUpdate := Notification("5", Info, "System Update", "New analytics features have been deployed. Check out the enhanced reporting.", "5 hours ago", true)
  const PerformanceBoost := Notification("6", Success, "Performance Boost", "Conversion rate improved by 15% across all active campaigns.", "1 day ago", true)

  const InitialNotifications := [CampaignCompleted, BudgetAlert, NewUserSignup, RevenueMilestone, SystemUpdate, PerformanceBoost]

  /** Of the initial notifications, exactly the first two are unread. */
  lemma InitialUnread()
    ensures Filter(InitialNotifications, IsUnread()) == [CampaignCompleted, BudgetAlert]
  {
    var p := IsUnread();
    var ns := InitialNotifications;
    var older := [NewUserSignup, RevenueMilestone, SystemUpdate, PerformanceBoost];
    assert ns[2..] == older;
    FilterNoneKept(older, p);
    FilterFrom(ns, 1, p);
    FilterFrom(ns, 0, p);
    assert ns[0..] == ns;
  }

  /** The initial list has two unread notifications, so the badge reads "2". */
  lemma InitialBadge()
    ensures UnreadCount(InitialNotifications) == 2
    ensures UnreadBadge(UnreadCount(InitialNotifications)) == Shown("2")
  {
    InitialUnread();
  }
}

=== FILE: pagination.dfy ===
/**
 Page slicing of the campaign table (src/components/data-table.tsx): three rows
 per page, `Math.ceil` page count, the "Showing x to y of z" line, and the
 Previous / page-number / Next controls.
 */
module Pagination {

  /** `itemsPerPage`. */
  const PageSize: nat := 3

  function Min(a: int, b: int): int {
    if a <= b then a else b
  }

  function Max(a: int, b: int): int {
    if a <= b then b else a
  }

  /** `Math.ceil(n / itemsPerPage)`: the fewest pages that hold `n` rows; 0 when there are none. */
  function TotalPages(n: nat): (r: nat)
    ensures r * PageSize >= n
    ensures (r - 1) * PageSize < n
    ensures r == 0 <==> n == 0
  {
    (n + PageSize - 1) / PageSize
  }

  /**
   `paginatedData`: `rows.slice((page - 1) * 3, page * 3)`. Pages are numbered
   from 1, and `slice` stops at the end of the list.
   */
  function Page<T>(rows: seq<T>, page: int): (r: seq<T>)
    requires page >= 1
    ensures |r| <= PageSize
    ensures page > TotalPages(|rows|) ==> r == []
    ensures forall i :: 0 <= i < |r| ==> (page - 1) * PageSize + i < |rows| && r[i] == rows[(page - 1) * PageSize + i]
  {
    var lo := (page - 1) * PageSize;
    var hi := page * PageSize;
    if lo >= |rows| then [] else rows[lo..Min(hi, |rows|)]
  }

  /** Every row on a page is a row of the table. */
  lemma PageMembers<T>(rows: seq<T>, page: int)
    requires page >= 1
    ensures forall x :: x in Page(rows, page) ==> x in rows
  {
    var r := Page(rows, page);
    forall x | x in r
      ensures x in rows
    {
      var i :| 0 <= i < |r| && r[i] == x;
      assert rows[(page - 1) * PageSize + i] == x;
    }
  }

  /** A page within the page count is full, except the last, which holds the remaining rows. */
  lemma PageLength<T>(rows: seq<T>, page: int)
    requires 1 <= page <= TotalPages(|rows|)
    ensures |Page(rows, page)| == Min(PageSize, |rows| - (page - 1) * PageSize)
  {
  }

  /** The "x" of "Showing x to y of z": the position of the first row of the page, counted from 1. */
  function ShowingFrom(page: int): int {
    (page - 1) * PageSize + 1
  }

  /** The "y" of "Showing x to y of z". */
  function ShowingTo(page: int, n: nat): int {
    Min(page * PageSize, n)
  }

  /** The "Showing" line names exactly the rows on the page, unless the page is past the end. */
  lemma ShowingDescribesPage<T>(rows: seq<T>, page: int)
    requires page >= 1
    ensures ShowingTo(page, |rows|) <= |rows|
    ensures ShowingFrom(page) <= ShowingTo(page, |rows|) ==>
              Page(rows, page) == rows[ShowingFrom(page) - 1..ShowingTo(page, |rows|)]
              && |Page(rows, page)| == ShowingTo(page, |rows|) - ShowingFrom(page) + 1
    ensures ShowingFrom(page) > ShowingTo(page, |rows|) <==> Page(rows, page) == []
  {
  }

  /** The rows of pages 1 to `k`, one page after another. */
  function PagesUpTo<T>(rows: seq<T>, k: nat): seq<T> {
    if k == 0 then [] else PagesUpTo(rows, k - 1) + Page(rows, k)
  }

  /** The first `k` pages are the first `3k` rows (or all of them). */
  lemma {:induction false} PagesUpToIsPrefix<T>(rows: seq<T>, k: nat)
    ensures PagesUpTo(rows, k) == rows[..Min(k * PageSize, |rows|)]
  {
    if k > 0 {
      PagesUpToIsPrefix(rows, k - 1);
      var lo := Min((k - 1) * PageSize, |rows|);
      var hi := Min(k * PageSize, |rows|);
      assert Page(rows, k) == rows[lo..hi];
      assert rows[..lo] + rows[lo..hi] == rows[..hi];
    }
  }

  /** Reading pages 1 to `totalPages` in turn shows every row once, in order. */
  lemma PagesCoverAllRows<T>(rows: seq<T>)
    ensures PagesUpTo(rows, TotalPages(|rows|)) == rows
  {
    PagesUpToIsPrefix(rows, TotalPages(|rows|));
  }

  /** Five rows: page 1 holds the first three, page 2 the last two, page 3 nothing. */
  lemma FiveRowsOnTwoPages<T>(rows: seq<T>)
    requires |rows| == 5
    ensures TotalPages(5) == 2
    ensures Page(rows, 1) == rows[..3]
    ensures Page(rows, 2) == rows[3..]
    ensures Page(rows, 3) == []
  {
  }

  /** A click on a pagination control. */
  datatype PagerAction = Previous | Next | GoTo(target: int)

  /**
   The pagination controls as written: Previous is disabled on page 1, Next only
   on page `totalPages`, and there is one button per page from 1 to `totalPages`.
   A disabled control leaves the page as it is.
   */
  function PagerStepAsWritten(page: int, totalPages: nat, action: PagerAction): (r: int)
    ensures page >= 1 ==> r >= 1
    ensures action.Next? && page != totalPages ==> r == page + 1
    ensures action.Previous? ==> r == if page == 1 then page else page - 1
    ensures action.GoTo? ==> r == if 1 <= action.target <= totalPages then action.target else page
  {
    match action
    case Previous => if page == 1 then page else page - 1
    case Next => if page == totalPages then page else page + 1
    case GoTo(k) => if 1 <= k <= totalPages then k else page
  }

  /**
   With no matching rows there are no pages, yet Next is enabled on page 1: it
   leads to page 2, which reads "Showing 4 to 0 of 0".
   */
  lemma NextPassesLastPage()
    ensures PagerStepAsWritten(1, TotalPages(0), Next) == 2
    ensures ShowingFrom(2) == 4 && ShowingTo(2, 0) == 0
  {
  }

  /** Once past the last page, Next stays enabled and moves further away. */
  lemma {:induction false} NextKeepsGoingPastEnd(page: int, n: nat, clicks: nat)
    requires page > TotalPages(n)
    ensures NextTimes(page, TotalPages(n), clicks) == page + clicks
  {
    if clicks > 0 {
      NextKeepsGoingPastEnd(page, n, clicks - 1);
    }
  }

  /** The page after `clicks` clicks on Next. */
  function NextTimes(page: int, totalPages: nat, clicks: nat): int {
    if clicks == 0 then page else PagerStepAsWritten(NextTimes(page, totalPages, clicks - 1), totalPages, Next)
  }

  /** A page number that a table of `totalPages` pages can show: 1 to `totalPages`, or 1 when it has none. */
  predicate InRange(page: int, totalPages: nat) {
    1 <= page <= Max(1, totalPages)
  }

  /** Brings the page back into range when the number of pages changes. */
  function ClampPage(page: int, totalPages: nat): (r: int)
    ensures InRange(r, totalPages)
    ensures InRange(page, totalPages) ==> r == page
    ensures page > Max(1, totalPages) ==> r == Max(1, totalPages)
  {
    if page < 1 then 1 else Min(page, Max(1, totalPages))
  }

  /** The controls with Next enabled only before the last page. */
  function PagerStep(page: int, totalPages: nat, action: PagerAction): (r: int)
    requires InRange(page, totalPages)
    ensures InRange(r, totalPages)
    ensures action.Next? ==> r == Min(page + 1, Max(1, totalPages))
    ensures action.Previous? ==> r == Max(page - 1, 1)
    ensures action.GoTo? ==> r == if 1 <= action.target <= totalPages then action.target else page
  {
    match action
    case Previous => if page == 1 then page else page - 1
    case Next => if page >= totalPages then page else page + 1
    case GoTo(k) => if 1 <= k <= totalPages then k else page
  }

  /** On a page in range the "Showing" line is well formed, and a non-empty table shows rows. */
  lemma InRangeShowsRows<T>(rows: seq<T>, page: int)
    requires InRange(page, TotalPages(|rows|))
    ensures ShowingFrom(page) <= ShowingTo(page, |rows|) + 1
    ensures |rows| > 0 ==> |Page(rows, page)| > 0
  {
  }
}

=== FILE: seqs.dfy ===
/**
 Sequence helpers shared by every list the dashboard keeps: the order-preserving
 `filter` of JavaScript arrays and the subsequence relation it establishes.
 */
module Seqs {

  /** `a` can be obtained from `b` by deleting elements (greedy left-to-right matching). */
  predicate IsSubsequence<T(==)>(a: seq<T>, b: seq<T>)
    decreases |b|
  {
    |a| == 0 ||
    (|b| > 0 && if a[0] == b[0] then IsSubsequence(a[1..], b[1..]) else IsSubsequence(a, b[1..]))
  }

  /** The elements of `s` that satisfy `p`, in their original order (`Array.prototype.filter`). */
  function Filter<T(==, !new)>(s: seq<T>, p: T -> bool): (r: seq<T>)
    ensures |r| <= |s|
    ensures forall x :: x in r <==> x in s && p(x)
  {
    if |s| == 0 then []
    else if p(s[0]) then
      assert s == [s[0]] + s[1..];
      [s[0]] + Filter(s[1..], p)
    else
      assert s == [s[0]] + s[1..];
      Filter(s[1..], p)
  }

  /** Filtering keeps every copy of a satisfying element and no copy of any other. */
  lemma {:induction false} FilterMultiplicity<T(!new)>(s: seq<T>, p: T -> bool, x: T)
    ensures multiset(Filter(s, p))[x] == if p(x) then multiset(s)[x] else 0
  {
    if |s| > 0 {
      FilterMultiplicity(s[1..], p, x);
      assert s == [s[0]] + s[1..];
    }
  }

  /** What filtering does with one element: `[x]` if it satisfies `p`, nothing otherwise. */
  function Keep<T>(x: T, p: T -> bool): seq<T> {
    if p(x) then [x] else []
  }

  /** Filtering a list with a known first element: that element is kept or dropped, then the rest is filtered. */
  lemma FilterCons<T(!new)>(x: T, s: seq<T>, p: T -> bool)
    ensures Filter([x] + s, p) == Keep(x, p) + Filter(s, p)
  {
    assert ([x] + s)[1..] == s;
  }

  /** Filtering the suffix of a list from position `i`, one element at a time. */
  lemma FilterFrom<T(!new)>(s: seq<T>, i: nat, p: T -> bool)
    requires i < |s|
    ensures Filter(s[i..], p) == Keep(s[i], p) + Filter(s[i + 1..], p)
  {
    assert s[i..] == [s[i]] + s[i + 1..];
    FilterCons(s[i], s[i + 1..], p);
  }

  /** Filtering a five-element list, spelled out element by element. */
  lemma FilterFive<T(!new)>(s: seq<T>, p: T -> bool)
    requires |s| == 5
    ensures Filter(s, p)
         == Keep(s[0], p)
          + (Keep(s[1], p)
          + (Keep(s[2], p)
          + (Keep(s[3], p)
          + Keep(s[4], p))))
  {
    FilterFrom(s, 4, p);
    assert s[5..] == [];
    assert Filter(s[4..], p) == Keep(s[4], p);
    FilterFrom(s, 3, p);
    assert Filter(s[3..], p) == Keep(s[3], p) + Keep(s[4], p);
    FilterFrom(s, 2, p);
    assert Filter(s[2..], p) == Keep(s[2], p) + (Keep(s[3], p) + Keep(s[4], p));
    FilterFrom(s, 1, p);
    FilterFrom(s, 0, p);
    assert s[0..] == s;
  }

  /** Filtering a seven-element list, spelled out element by element. */
  lemma FilterSeven<T(!new)>(s: seq<T>, p: T -> bool)
    requires |s| == 7
    ensures Filter(s, p)
         == Keep(s[0], p)
          + (Keep(s[1], p)
          + (Keep(s[2], p)
          + (Keep(s[3], p)
          + (Keep(s[4], p)
          + (Keep(s[5], p)
          + Keep(s[6], p))))))
  {
    FilterFrom(s, 6, p);
    assert s[7..] == [];
    assert Filter(s[6..], p) == Keep(s[6], p);
    FilterFrom(s, 5, p);
    FilterFrom(s, 4, p);
    FilterFrom(s, 3, p);
    FilterFrom(s, 2, p);
    FilterFrom(s, 1, p);
    FilterFrom(s, 0, p);
    assert s[0..] == s;
  }

  /** A filtered list is an order-preserving subsequence of the list it came from. */
  lemma {:induction false} FilterIsSubsequence<T(!new)>(s: seq<T>, p: T -> bool)
    ensures IsSubsequence(Filter(s, p), s)
  {
    if |s| > 0 {
      FilterIsSubsequence(s[1..], p);
      var r := Filter(s, p);
      if p(s[0]) {
        assert r[0] == s[0] && r[1..] == Filter(s[1..], p);
      } else if |r| > 0 {
        assert r[0] in r;
        assert r[0] != s[0];
      }
    }
  }

  /** When every element satisfies the predicate, filtering changes nothing. */
  lemma {:induction false} FilterKeepsAll<T(!new)>(s: seq<T>, p: T -> bool)
    requires forall i :: 0 <= i < |s| ==> p(s[i])
    ensures Filter(s, p) == s
  {
    if |s| > 0 {
      FilterKeepsAll(s[1..], p);
      assert s == [s[0]] + s[1..];
    }
  }

  /** When no element satisfies the predicate, filtering leaves nothing. */
  lemma FilterNoneKept<T(!new)>(s: seq<T>, p: T -> bool)
    requires forall i :: 0 <= i < |s| ==> !p(s[i])
    ensures Filter(s, p) == []
  {
  }

  /** Filtering by a predicate and by its negation splits the list: the two lengths add up. */
  lemma {:induction false} FilterComplementLength<T(!new)>(s: seq<T>, p: T -> bool, q: T -> bool)
    requires forall x :: q(x) == !p(x)
    ensures |Filter(s, p)| + |Filter(s, q)| == |s|
  {
    if |s| > 0 {
      FilterComplementLength(s[1..], p, q);
    }
  }

  /** Filtering twice by the same predicate is the same as filtering once. */
  lemma {:induction false} FilterIdempotent<T(!new)>(s: seq<T>, p: T -> bool)
    ensures Filter(Filter(s, p), p) == Filter(s, p)
  {
    var r := Filter(s, p);
    forall i | 0 <= i < |r|
      ensures p(r[i])
    {
      assert r[i] in r;
    }
    FilterKeepsAll(r, p);
  }

  /** A list without repeated elements. */
  predicate NoDuplicates<T(==)>(s: seq<T>) {
    forall i, j :: 0 <= i < j < |s| ==> s[i] != s[j]
  }

  /** Filtering a list without repetitions yields a list without repetitions. */
  lemma {:induction false} FilterNoDuplicates<T(!new)>(s: seq<T>, p: T -> bool)
    requires NoDuplicates(s)
    ensures NoDuplicates(Filter(s, p))
  {
    if |s| > 0 {
      assert NoDuplicates(s[1..]) by {
        forall i, j | 0 <= i < j < |s[1..]|
          ensures s[1..][i] != s[1..][j]
        {
          assert s[1..][i] == s[i + 1] && s[1..][j] == s[j + 1];
        }
      }
      FilterNoDuplicates(s[1..], p);
      var rest := Filter(s[1..], p);
      if p(s[0]) {
        assert s[0] !in s[1..] by {
          forall k | 0 <= k < |s[1..]|
            ensures s[1..][k] != s[0]
          {
            assert s[1..][k] == s[k + 1];
          }
        }
        assert s[0] !in rest;
        var r := [s[0]] + rest;
        forall i, j | 0 <= i < j < |r|
          ensures r[i] != r[j]
        {
          if i == 0 {
            assert r[j] == rest[j - 1] && rest[j - 1] in rest;
          } else {
            assert r[i] == rest[i - 1] && r[j] == rest[j - 1];
          }
        }
      }
    }
  }
}

=== FILE: strings.dfy ===
/**
 String operations the dashboard relies on: `toLowerCase`, `includes`, and the
 ordering of strings (modelled on JavaScript's `<`, which also stands in for
 `localeCompare`). Strings are sequences of characters (Unicode scalar values);
 JavaScript's strings are sequences of UTF-16 code units, and the two agree on
 every character of the Basic Multilingual Plane.
 */
module Strings {

  /** `toLowerCase` on one character; only the ASCII letters are mapped. */
  function LowerChar(c: char): char {
    if 'A' <= c <= 'Z' then (c as int + 32) as char else c
  }

  /** `toLowerCase` on a whole string, character by character. */
  function ToLower(s: string): string {
    seq(|s|, i requires 0 <= i < |s| => LowerChar(s[i]))
  }

  /** `hay.includes(needle)`: the needle occurs at some position of the haystack. */
  predicate Contains(hay: string, needle: string)
    decreases |hay|
  {
    needle <= hay || (|hay| > 0 && Contains(hay[1..], needle))
  }

  /** `includes` agrees with its textbook definition: an occurrence starting at some index. */
  lemma {:induction false} ContainsIffOccurrence(hay: string, needle: string)
    ensures Contains(hay, needle) <==> exists i :: 0 <= i <= |hay| && needle <= hay[i..]
    decreases |hay|
  {
    if |hay| > 0 {
      ContainsIffOccurrence(hay[1..], needle);
      if Contains(hay[1..], needle) {
        var i :| 0 <= i <= |hay[1..]| && needle <= hay[1..][i..];
        assert hay[1..][i..] == hay[i + 1..];
      }
      if exists i :: 0 <= i <= |hay| && needle <= hay[i..] {
        var i :| 0 <= i <= |hay| && needle <= hay[i..];
        if i > 0 {
          assert hay[1..][i - 1..] == hay[i..];
        }
      }
    } else {
      if exists i :: 0 <= i <= |hay| && needle <= hay[i..] {
        var i :| 0 <= i <= |hay| && needle <= hay[i..];
        assert hay[i..] == hay;
      }
    }
  }

  /** `a < b` on strings: lexicographic comparison of characters (Unicode scalar values). */
  predicate StrLess(a: string, b: string)
    decreases |a|
  {
    |b| > 0 && (|a| == 0 || a[0] < b[0] || (a[0] == b[0] && StrLess(a[1..], b[1..])))
  }

  /** No string precedes itself. */
  lemma {:induction false} StrLessIrreflexive(a: string)
    ensures !StrLess(a, a)
    decreases |a|
  {
    if |a| > 0 {
      StrLessIrreflexive(a[1..]);
    }
  }

  /** Two strings are never each before the other. */
  lemma {:induction false} StrLessAsymmetric(a: string, b: string)
    ensures StrLess(a, b) ==> !StrLess(b, a)
    decreases |a|
  {
    if |a| > 0 && |b| > 0 && a[0] == b[0] {
      StrLessAsymmetric(a[1..], b[1..]);
    }
  }

  /** Two different strings are always ordered one way or the other. */
  lemma {:induction false} StrLessTotal(a: string, b: string)
    ensures a != b ==> StrLess(a, b) || StrLess(b, a)
    decreases |a|
  {
    if |a| > 0 && |b| > 0 && a[0] == b[0] {
      StrLessTotal(a[1..], b[1..]);
      if a[1..] == b[1..] {
        assert a == [a[0]] + a[1..] && b == [b[0]] + b[1..];
      }
    }
  }

  /** The ordering is transitive. */
  lemma {:induction false} StrLessTransitive(a: string, b: string, c: string)
    ensures StrLess(a, b) && StrLess(b, c) ==> StrLess(a, c)
    decreases |a|
  {
    if |a| > 0 && |b| > 0 && |c| > 0 && a[0] == b[0] && b[0] == c[0] {
      StrLessTransitive(a[1..], b[1..], c[1..]);
    }
  }
}

=== FILE: wrappers.dfy ===
/** Option and Result datatypes for the model's partial operations and error paths. */
module Wrappers {

  /** A value that may be absent (a JavaScript `undefined` or `NaN`). */
  datatype Option<+T> = None | Some(value: T)

  /** Either a value or an error, standing for a function that may throw. */
  datatype Result<+R, +E> = Success(value: R) | Failure(error: E)
}
